=== FILE: README.md ===
# github-repo-manager core, modelled in Dafny

github-repo-manager keeps one directory per repository owner in sync with the
owner's repositories on GitHub. Each clone records, in its local git
configuration, seventeen `github.repo.*` keys that describe the remote
repository. The next run uses the stored id to recognise the clone even after
the repository has been renamed.

This project models the four pieces of that logic that do not talk to the
outside world:

- **Git config** (`git_config.dfy`, module `GitConfig`). Parses the output of
  `git config --list --local` with the multiline regex `/^(.*?)=(.*)\n/gm` and
  folds it into a last-wins map. Also decides what `ensureConfig` does for one
  key: nothing, `git config key value`, or `git config --unset key`.
- **Metadata codec** (`metadata_codec.dfy`, module `MetadataCodec`).
  `setMetadata` writes a repository's fields under the seventeen keys, checking
  each key against one snapshot taken at the start. `getMetadata` reads them
  back. The model computes the writes, the resulting store, and exactly which
  fields survive the round trip.
- **Matcher** (`matcher.dfy`, module `Matcher`). `matchLocalsToRemotes` pairs
  local entries with catalog repositories by stored id and sets aside ids that
  several entries claim. It flags renamed clones. It splits the remaining
  repositories into those to clone and those blocked by an entry with the same
  name up to case. `Matcher.IdPassFrom` is the id loop itself, from any
  remote on; `Matcher.PairById` runs it over the whole catalog.
- **Promise limiter** (`promise_limiter.dfy`, module `PromiseLimiter`).
  `makePromiseLimiter` admits at most `size` jobs at once and starts waiting
  jobs in FIFO order. The model threads the limiter's closure state explicitly
  through `Submit`, `TryStart` and the per-job `finally` handler (`Finish`).

Supporting modules:

- `Wrappers` holds `Option`.
- `Seqs` holds `Array.prototype.filter` and `map` with their algebra.
- `Strings` holds ASCII lower-casing and the default string `sort`, as
  insertion sort, proved to be the unique sorted permutation.
- `ReferenceData` holds the catalog `Repository` record.
- `Locals` holds the classification of owner-directory entries.

Throughout, JavaScript `undefined` is `None`. A config snapshot is a
`map<string, string>`. Each git invocation is a `Decision` value, applied to
the store by `Apply`.

`getMetadata` does not give the repository back exactly. It never reads
`visibility`. Absent timestamps come back as `""`. An empty owner login or
empty default-branch name comes back as unknown. The next run reads the store
back through `git config --list --local` and `readGitConfig`, whose regex ends
a line at `\r`, U+2028 or U+2029 as well as at `\n`. A value holding one of
those characters (git allows U+2028 and U+2029 in branch names) therefore never
reads back: `setMetadata` writes it again on every run, and a default branch so
named never decodes back to its own name. Usually it comes back as unknown, but
text after the line break that itself looks like a `key=value` line is read as
one. `MetadataCodec.SyncThenDecode` and
`MetadataCodec.RoundTripExactWhen` state what survives when every value fits on
one line; `MetadataCodec.MultiLineTargetRewritten`,
`MetadataCodec.MultiLineBranchLost` and `MetadataCodec.LineSeparatorInBranchName`
state what happens otherwise.

## Model

| member | source | states |
|---|---|---|
| GitConfig.SplitLine | src/gitConfig.ts:16-19 | the lazy group cuts a line at its first `=`: the line is key, `=`, value, and the key holds no `=` |
| GitConfig.Entries | src/gitConfig.ts:16-19 | every regex match yields a key with no `=` and no line terminator, and a value with no line terminator |
| GitConfig.FirstLineEntries | src/gitConfig.ts:16-19 | the match on one line without terminators, taken when a `\n` ends it and it holds an `=`, is well formed |
| GitConfig.SingleLine | src/gitConfig.ts:16 | one terminated line yields an entry iff it holds an `=` and its terminator is `\n` (a `\r`, U+2028 or U+2029 ending yields nothing) |
| GitConfig.UnterminatedLineIgnored | src/gitConfig.ts:16 | a final line with no `\n` after it contributes no entry |
| GitConfig.EntriesAppend | src/gitConfig.ts:16 | matching is line-local: text cut right after a line terminator parses as the concatenation of its two parts' matches |
| GitConfig.EntriesOfRender | src/gitConfig.ts:16-19 | parsing inverts rendering: well-formed entries written as `key=value\n` lines are read back exactly, in order |
| GitConfig.Fold | src/gitConfig.ts:21-27 | the key of every parsed entry is a key of the reduced object |
| GitConfig.FoldSource | src/gitConfig.ts:21-27 | every pair of the folded object comes from some parsed entry |
| GitConfig.FoldLastWins | src/gitConfig.ts:21-27 | for a repeated key the object keeps the value of its last occurrence |
| GitConfig.ReadGitConfig | src/gitConfig.ts:8-28 | every key read has no `=` and no line terminator, and every value has no line terminator |
| GitConfig.ReadRenderedConfig | src/gitConfig.ts:8-28 | every map with such keys and values is exactly what `readGitConfig` returns for some listing of it |
| GitConfig.EnsureConfig | src/gitConfig.ts:30-46 | no call iff the stored value equals the target (`undefined` included); unset iff the target is `undefined` and the key is stored; otherwise set the key to the target |
| GitConfig.Ensure | src/gitConfig.ts:30-46 | after the call the key holds the target (absent for `undefined`), every other key is unchanged, and a second call does nothing |
| MetadataCodec.MetadataKeysDistinct | src/metadata.ts:5-24 | the seventeen key constants are pairwise distinct |
| MetadataCodec.Encode | src/metadata.ts:32-135 | seventeen targets, one per key, in the order `setMetadata` visits them, with pairwise distinct keys |
| MetadataCodec.SetMetadata | src/metadata.ts:26-136 | the writes issued are, in order, a `git config key value` for exactly the targets whose snapshot value differs |
| MetadataCodec.EnsureAllWrites | src/metadata.ts:30-135 | a run of `ensureConfig` calls against one snapshot writes exactly the stale targets, in order |
| MetadataCodec.ApplyEnsureAll | src/metadata.ts:30-135 | applying those writes to a store that agrees with the snapshot on the target keys sets each target key and leaves every other key alone |
| MetadataCodec.EnsureAllEffect | src/metadata.ts:30-135 | applied to the snapshot itself, the writes set every target key to its value and leave every other key as it was |
| MetadataCodec.SyncEffect | src/metadata.ts:26-136 | after `setMetadata` each of the seventeen keys holds its target value and every other key keeps its old value or stays absent |
| MetadataCodec.SetMetadataIdempotent | src/metadata.ts:26-136 | on a store whose keys and values fit on one line, with one-line targets, the next run of `setMetadata`, reading the synced store back through the listing and `readGitConfig`, writes nothing |
| MetadataCodec.SyncReadsBack | src/metadata.ts:26-136 | on such a store, the store after `setMetadata` reads back through the listing and `readGitConfig` exactly, and holds every target value |
| MetadataCodec.MetadataKeysWellFormed | src/metadata.ts:5-24 | no key constant holds an `=` or a line terminator, so each can be listed and read back |
| MetadataCodec.MultiLineTargetRewritten | src/metadata.ts:30-135 | for any listing text, a target value holding a line terminator is stale in the snapshot `readGitConfig` gives, so `setMetadata` writes it again |
| MetadataCodec.MultiLineBranchLost | src/metadata.ts:173-177 | for any listing text, a default-branch name holding a line terminator never decodes back to the repository's branch |
| MetadataCodec.LineSeparatorInBranchName | src/gitConfig.ts:16 | the listing line of a branch named `a`, U+2028, `b` yields no match at all |
| MetadataCodec.DecodeIdentity | src/metadata.ts:164-179 | from a synced store, id, name and url come back exactly; owner and default branch come back only when their text is non-empty |
| MetadataCodec.GetMetadata | src/metadata.ts:163-193 | visibility is never read; owner and default branch are present exactly when their key holds non-empty text, and then carry that text; every flag is known, and true exactly when its key holds `"true"`; how a synced store decodes is stated by the `Decode` lemmas |
| MetadataCodec.DecodeOwnerAndBranch | src/metadata.ts:167-177 | owner and default branch decode by JavaScript truthiness of the stored text |
| MetadataCodec.DecodeFlags | src/metadata.ts:181-187 | from a synced store, each of the seven flags comes back as the repository's flag |
| MetadataCodec.DecodeStateFlags | src/metadata.ts:181-184 | from a synced store, the archived, empty, fork and locked flags come back as the repository's |
| MetadataCodec.DecodeKindFlags | src/metadata.ts:185-187 | from a synced store, the mirror, private and template flags come back as the repository's |
| MetadataCodec.DecodeTimestamps | src/metadata.ts:189-192 | from a synced store, the creation time comes back exactly, and the optional timestamps come back as their value or `""` |
| MetadataCodec.SyncThenDecode | src/metadata.ts:163-193 | on a store whose keys and values fit on one line, with one-line targets, field by field what `getMetadata` returns from the synced store as the next run reads it; visibility is always unknown |
| MetadataCodec.RoundTripExactWhen | src/metadata.ts:163-193 | under the same conditions, and apart from visibility, the round trip reproduces the repository iff the owner login is non-empty, any default branch has a non-empty name, and all three optional timestamps are present |
| Strings.LowerChar | src/matcher.ts:102-105 | an ASCII capital maps to the small letter at the same place in the alphabet, and every other character is unchanged |
| Strings.Lower | src/matcher.ts:102-105 | lower-casing keeps the length, works character by character, and leaves no ASCII capital |
| Strings.LowerAlike | src/matcher.ts:102-105 | two names lower-case alike iff they have the same length and agree position by position up to ASCII case |
| Strings.LowerIdempotent | src/matcher.ts:102-105 | lower-casing twice is lower-casing once |
| Strings.LexTotal | src/matcher.ts:68-71 | the default string order is total |
| Strings.LexAntisymmetric | src/matcher.ts:68-71 | the default string order is antisymmetric |
| Strings.LexTransitive | src/matcher.ts:68-71 | the default string order is transitive |
| Strings.Insert | src/matcher.ts:68-71 | inserting into a sorted sequence keeps it sorted and adds exactly that element |
| Strings.SortStrings | src/matcher.ts:68-71 | `.sort()` returns a sorted permutation of the names |
| Strings.SortedUnique | src/matcher.ts:68-71 | two sorted permutations of the same names are equal, so any correct sort agrees with `SortStrings` |
| Seqs.Filter | src/matcher.ts:86-87 | `filter` keeps only elements that pass, never more than it was given, each no more often than in the input |
| Seqs.FilterMembers | src/matcher.ts:102-105 | an element is in the filtered sequence iff it is in the input and passes |
| Seqs.FilterPartition | src/matcher.ts:62-80 | filtering by a predicate and by its negation splits the input into two parts that together are the input |
| Seqs.Map | src/matcher.ts:88-91 | `map` keeps the length and applies the function position by position |
| Matcher.Matching | src/matcher.ts:56-60 | every entry found is a git entry whose stored id is the remote's id |
| Matcher.AmbiguityWarning | src/matcher.ts:66-74 | the message names the owner directory and the remote url, and lists the matching entries' names sorted, each as often as it occurs |
| Matcher.PairById | src/matcher.ts:46-81 | each pair joins a remote to a git entry with its id; each ambiguity warning holds at least two such entries; as multisets, the pairs', warnings' and unmatched remotes together are the catalog, and the paired, warned and unmatched entries together are the input entries; the unmatched entries are those no remote claims |
| Matcher.IdPassFrom | src/matcher.ts:55-81 | the id loop from any remote on: each pair joins a remote to a git entry with its id, each ambiguity warning holds at least two such entries, and pairs, warnings and unmatched remotes together are as many as the remotes visited |
| Matcher.PairByIdRemotes | src/matcher.ts:55-81 | for the loop from any remote on, as multisets, the pairs' remotes, the warnings' remotes and the unmatched remotes together are the remotes it visits |
| Matcher.PairByIdLocals | src/matcher.ts:55-81 | for the loop from any remote on, as multisets, the paired entries, the warnings' entries and the unmatched entries together are the entries it starts with; none is used twice |
| Matcher.UnmatchedLocalsExact | src/matcher.ts:46-81 | the unmatched entries are, in input order, exactly those that no catalog repository claims by id |
| Matcher.SplitUnmatched | src/matcher.ts:101-116 | each remote to clone has no same-named entry; each warning lists every entry with the remote's name up to case, in order, and names the first |
| Matcher.SplitUnmatchedExact | src/matcher.ts:101-116 | the clone list is the unblocked unmatched remotes and the warnings are for the blocked ones, each in the order of the unmatched remotes |
| Matcher.BlockedIff | src/matcher.ts:102-107 | a remote is blocked iff some entry of any kind has its name up to case |
| Matcher.MatchingAfterRemoval | src/matcher.ts:62-77 | removing the entries one id claims does not change which entries claim a different id |
| Matcher.PairByIdClassifies | src/matcher.ts:55-81 | with distinct catalog ids: paired remotes are those exactly one entry claims, ambiguous ones those several claim, unmatched ones those none claims, each in catalog order |
| Matcher.PairsAreSoleClaims | src/matcher.ts:62-65 | with distinct catalog ids, each pair holds the only entry claiming its remote |
| Matcher.WarningsAreAllClaims | src/matcher.ts:66-77 | with distinct catalog ids, each ambiguity warning lists, in order, all entries claiming its remote |
| Matcher.MatchLocalsToRemotes | src/matcher.ts:41-136 | pairs share an id; ambiguity warnings are valid; unmatched entries are those no remote claims; the four remote outcomes count up to the catalog; the rename warnings are, in order, exactly the pairs whose names differ; no remote to clone has a same-named entry, and each something-in-the-way warning lists every same-named entry and names the first |
| Matcher.MatchRemotesPartition | src/matcher.ts:41-136 | every catalog repository ends up in exactly one of: a pair, an ambiguity warning, the clone list, a something-in-the-way warning |
| Matcher.MatchLocalsPartition | src/matcher.ts:41-136 | every local entry ends up in exactly one of: a pair, one ambiguity warning, the unmatched entries |
| Matcher.MatchClassifies | src/matcher.ts:41-136 | with distinct catalog ids, the whole result against a per-remote classification by claim count and by name clash |
| PromiseLimiter.Create | src/promiseLimiter.ts:22-30 | a fresh limiter is consistent and idle, and no job is submitted |
| PromiseLimiter.InFlightBound | src/promiseLimiter.ts:27-62 | never more jobs in flight than the size (none for a negative size) |
| PromiseLimiter.StartOldest | src/promiseLimiter.ts:38-44 | one loop round takes one slot and moves the oldest waiting job, which was not yet in flight, into the in-flight set; size and next id are kept and the state stays consistent |
| PromiseLimiter.TryStart | src/promiseLimiter.ts:37-63 | starts the oldest waiting jobs, in queue order, as many as slots and queue allow, each taking one slot and ending up running; afterwards no job waits while a slot is free; no other job changes status |
| PromiseLimiter.Submit | src/promiseLimiter.ts:67-77 | the job gets the next id and starts at once iff a slot was free, otherwise waits last; no other job changes status; no job moves backwards |
| PromiseLimiter.Finish | src/promiseLimiter.ts:51-60 | the job is finished and gives its slot back; the oldest waiting job, if any, takes it and is running afterwards; no other job changes status; no job moves backwards |

## Left out

- Process calls are left out. The model does not run `git` or `runAndCapture`, and does not read directories. `readGitConfig` receives the command's stdout as text. `ensureConfig` and `setMetadata` return the `Decision`s they would carry out, and `Apply` gives their effect.
- `Locals`: `loadLocalRepositories` is left out because it is file-system I/O. `LocalInfo` drops the `fs.Stats` field `stat`, which nothing in the model reads.
- The module-level `configLimiter` and the scheduling of git calls through it are left out. The limiter itself is modelled on its own.
- Promise settlement is left out. This covers forwarding of a job's result or rejection to the caller's promise, and a job whose `makePromise` throws synchronously. A job's completion is the `Finish` event, in whatever order the caller chooses.
- `Matcher.InTheWayOf`: `toLocaleLowerCase` is modelled as ASCII lower-casing. Locale and Unicode case mappings are not modelled.
- `Strings.SortStrings` orders by Unicode scalar value. JavaScript's `sort` uses UTF-16 code units, and the two orders differ only for characters outside the Basic Multilingual Plane.
- `PromiseLimiter.Create`: the size is an integer. A fractional size, which JavaScript's number allows, is not modelled.
- Logging is left out. This covers the limiter's debug lines, the `describe` helper, and the `console.log` before each config write.
- Message text is kept as its components (`Matcher.Message`), not as formatted strings. The ambiguity message's `join(", ")` is represented by the sorted name list.
- `MetadataCodec.SetMetadataIdempotent` assumes every key and value of the store fits on one line and every key is free of `=`, and that every target value fits on one line. A value spanning lines elsewhere in the config can add or hide lines of the listing; a target spanning lines is covered by `MetadataCodec.MultiLineTargetRewritten` instead.
- `MetadataCodec.SyncThenDecode` makes the same assumptions about the store and the targets; `MetadataCodec.MultiLineBranchLost` covers a default-branch name spanning lines.
- `MetadataCodec.RoundTripExactWhen` makes the same assumptions about the store and the targets.
- `GitConfig.ReadBack` models the store git keeps as a map with one line per key in the listing, in one fixed order. Multi-valued keys and include files are not modelled.
- `GitConfig.Get` reads the parsed object's own keys only. Inherited `Object.prototype` names are out of scope, because the model only ever looks up the seventeen lower-case `github.repo.*` keys.
- `Matcher.PairByIdClassifies`, `Matcher.PairsAreSoleClaims`, `Matcher.WarningsAreAllClaims` and `Matcher.MatchClassifies` assume the catalog ids are distinct, as GitHub's are. Without that, a repeated id finds its entries already consumed by the first remote with that id. The partition lemmas and `Matcher.UnmatchedLocalsExact` hold for any catalog.
- `src/index.ts`, `src/referenceData.ts` (fetching), `src/gitHubGraphClient.ts`, `src/runAndCapture.ts`, `src/detachedPromise.ts` and `codegen.ts` are not part of this model. They are network, process and orchestration code.

=== FILE: git_config.dfy ===
/** The local git configuration of a clone: parsing the output of
    `git config --list --local`, and the no-op / set / unset decision that
    brings one key to a target value. */
module GitConfig {
  import opened Wrappers

  /** A parsed configuration: key to value (the source's `Record<string, string>`). */
  type Config = map<string, string>

  datatype Entry = Entry(key: string, value: string)

  /** `config[key]`, with `undefined` as `None`. */
  function Get(config: Config, key: string): Option<string> {
    if key in config then Some(config[key]) else None
  }

  // ---------------------------------------------------------------------------
  // Parsing `key=value` lines with the multiline regex /^(.*?)=(.*)\n/gm

  /** The characters JavaScript's `.` refuses and after which `^` matches in multiline mode. */
  predicate IsLineTerminator(c: char) {
    c == '\n' || c == '\r' || c == '\U{2028}' || c == '\U{2029}'
  }

  predicate NoTerminator(s: string) {
    forall i :: 0 <= i < |s| ==> !IsLineTerminator(s[i])
  }

  /** Length of the run of non-terminator characters at the start of `s`. */
  function LineLength(s: string): (n: nat)
    ensures n <= |s|
    ensures NoTerminator(s[..n])
    ensures n < |s| ==> IsLineTerminator(s[n])
  {
    if |s| == 0 || IsLineTerminator(s[0]) then 0
    else
      var m := LineLength(s[1..]);
      assert s[..m + 1] == [s[0]] + s[1..][..m];
      m + 1
  }

  /** Position of the first `c` in `s`. */
  function IndexOf(s: string, c: char): (i: nat)
    requires c in s
    ensures i < |s| && s[i] == c && c !in s[..i]
  {
    if s[0] == c then 0
    else
      var j := IndexOf(s[1..], c);
      assert s[..j + 1] == [s[0]] + s[1..][..j];
      j + 1
  }

  /** The lazy group `(.*?)` stops at the first `=`; the rest of the line is the value. */
  function SplitLine(line: string): (e: Entry)
    requires '=' in line
    ensures line == e.key + "=" + e.value
    ensures '=' !in e.key
  {
    var i := IndexOf(line, '=');
    assert line == line[..i] + "=" + line[i + 1..];
    Entry(line[..i], line[i + 1..])
  }

  /** What a regex match can yield: no `=` or line terminator in the key, no terminator in the value. */
  predicate WellFormed(e: Entry) {
    '=' !in e.key && NoTerminator(e.key) && NoTerminator(e.value)
  }

  /** The matches of the regex over `text`, in order. A match starts only at a line
      start, covers one line, and needs an `=` on it and a `\n` right after it. */
  function Entries(text: string): (es: seq<Entry>)
    ensures forall i :: 0 <= i < |es| ==> WellFormed(es[i])
    decreases |text|
  {
    var n := LineLength(text);
    if n == |text| then [] else FirstLineEntries(text, n) + Entries(text[n + 1..])
  }

  /** The match, if any, on the first line `text[..n]` of a text whose first line is
      terminated at `n`. */
  function FirstLineEntries(text: string, n: nat): (es: seq<Entry>)
    requires n < |text| && NoTerminator(text[..n])
    ensures forall i :: 0 <= i < |es| ==> WellFormed(es[i])
  {
    if text[n] == '\n' && '=' in text[..n] then
      SplitLineWellFormed(text[..n]);
      [SplitLine(text[..n])]
    else []
  }

  /** The key and value of a line without terminators hold none either. */
  lemma SplitLineWellFormed(line: string)
    requires '=' in line && NoTerminator(line)
    ensures WellFormed(SplitLine(line))
  {
    var e := SplitLine(line);
    assert forall i :: 0 <= i < |e.key| ==> e.key[i] == line[i];
    assert forall i :: 0 <= i < |e.value| ==> e.value[i] == line[|e.key| + 1 + i];
  }

  /** The `reduce` with object spread: entries applied left to right, so a later key wins. */
  function Fold(es: seq<Entry>): (m: Config)
    ensures forall i :: 0 <= i < |es| ==> es[i].key in m
  {
    if |es| == 0 then map[]
    else
      var last := es[|es| - 1];
      var m := Fold(es[..|es| - 1])[last.key := last.value];
      assert forall i :: 0 <= i < |es| - 1 ==> es[..|es| - 1][i] == es[i];
      m
  }

  /** Every pair of the folded map comes from one of the entries. */
  lemma {:induction false} FoldSource(es: seq<Entry>, k: string) returns (i: nat)
    requires k in Fold(es)
    ensures i < |es| && es[i] == Entry(k, Fold(es)[k])
  {
    var last := es[|es| - 1];
    if last.key == k {
      i := |es| - 1;
    } else {
      var init := es[..|es| - 1];
      i := FoldSource(init, k);
      assert init[i] == es[i];
    }
  }

  /** Every key and value of the map could come from a regex match: no `=` or line
      terminator in a key, no line terminator in a value. */
  predicate WellFormedConfig(m: Config) {
    forall k :: k in m ==> '=' !in k && NoTerminator(k) && NoTerminator(m[k])
  }

  /** `readGitConfig` without the process call: the stdout of `git config --list --local` to a map. */
  function ReadGitConfig(text: string): (config: Config)
    ensures WellFormedConfig(config)
  {
    var es := Entries(text);
    var config := Fold(es);
    forall k | k in config
      ensures '=' !in k && NoTerminator(k) && NoTerminator(config[k])
    {
      var i := FoldSource(es, k);
      assert WellFormed(es[i]);
    }
    config
  }

  /** When a key repeats, the value of its last occurrence is the one kept. */
  lemma {:induction false} FoldLastWins(es: seq<Entry>, i: nat)
    requires i < |es|
    requires forall j :: i < j < |es| ==> es[j].key != es[i].key
    ensures es[i].key in Fold(es) && Fold(es)[es[i].key] == es[i].value
  {
    if i < |es| - 1 {
      var init := es[..|es| - 1];
      assert init[i] == es[i];
      FoldLastWins(init, i);
    }
  }

  /** Splitting the text after a line terminator splits the entries the same way. */
  lemma {:induction false} EntriesAppend(a: string, b: string)
    requires |a| == 0 || IsLineTerminator(a[|a| - 1])
    ensures Entries(a + b) == Entries(a) + Entries(b)
    decreases |a|
  {
    if |a| > 0 {
      var n := LineLength(a);
      FirstLineOfAppend(a, b);
      EntriesAppend(a[n + 1..], b);
      EntriesAppendStep(a, b);
    } else {
      assert a + b == b;
    }
  }

  /** The step of `EntriesAppend`: if the text after the first line of `a` parses
      line-locally with `b`, so does `a`. */
  lemma EntriesAppendStep(a: string, b: string)
    requires |a| > 0 && IsLineTerminator(a[|a| - 1])
    requires var n := LineLength(a); n < |a| && Entries(a[n + 1..] + b) == Entries(a[n + 1..]) + Entries(b)
    ensures Entries(a + b) == Entries(a) + Entries(b)
  {
    var n := LineLength(a);
    FirstLineOfAppend(a, b);
    var rest := a[n + 1..];
    var head := FirstLineEntries(a, n);
    EntriesStep(a + b);
    EntriesStep(a);
    assert Entries(a + b) == head + (Entries(rest) + Entries(b));
    assert Entries(a) == head + Entries(rest);
    Regroup(head, Entries(rest), Entries(b));
  }

  /** Concatenation regroups freely. */
  lemma Regroup(x: seq<Entry>, y: seq<Entry>, z: seq<Entry>)
    ensures x + (y + z) == (x + y) + z
  {
  }

  /** Appending after a terminated text changes neither its first line nor what
      follows that line, except for the appended part. */
  lemma FirstLineOfAppend(a: string, b: string)
    requires |a| > 0 && IsLineTerminator(a[|a| - 1])
    ensures LineLength(a + b) == LineLength(a) < |a|
    ensures FirstLineEntries(a + b, LineLength(a)) == FirstLineEntries(a, LineLength(a))
    ensures (a + b)[LineLength(a) + 1..] == a[LineLength(a) + 1..] + b
    ensures var rest := a[LineLength(a) + 1..]; |rest| == 0 || IsLineTerminator(rest[|rest| - 1])
  {
    var n := LineLength(a);
    LineLengthPrefix(a, b);
    assert (a + b)[..n] == a[..n];
    assert (a + b)[n] == a[n];
  }

  /** One step of the scan: the first line's match, then the matches of the rest. */
  lemma EntriesStep(text: string)
    requires LineLength(text) < |text|
    ensures Entries(text) == FirstLineEntries(text, LineLength(text)) + Entries(text[LineLength(text) + 1..])
  {
  }

  lemma LineLengthPrefix(a: string, b: string)
    requires |a| > 0 && IsLineTerminator(a[|a| - 1])
    ensures LineLength(a + b) == LineLength(a) < |a|
    decreases |a|
  {
    if !IsLineTerminator(a[0]) {
      assert (a + b)[1..] == a[1..] + b;
      LineLengthPrefix(a[1..], b);
    }
  }

  /** A trailing line with no `\n` after it contributes nothing. */
  lemma UnterminatedLineIgnored(line: string)
    requires NoTerminator(line)
    ensures Entries(line) == []
  {
  }

  /** One terminated line yields an entry exactly when it holds an `=` and ends in `\n`. */
  lemma {:induction false} SingleLine(line: string, t: char)
    requires NoTerminator(line) && IsLineTerminator(t)
    ensures Entries(line + [t]) == if t == '\n' && '=' in line then [SplitLine(line)] else []
  {
    var s := line + [t];
    LineLengthOfLine(line, t);
    assert s[..|line|] == line;
    assert s[|line| + 1..] == [];
  }

  lemma LineLengthOfLine(line: string, t: char)
    requires NoTerminator(line) && IsLineTerminator(t)
    ensures LineLength(line + [t]) == |line|
    decreases |line|
  {
    if |line| > 0 {
      assert (line + [t])[1..] == line[1..] + [t];
      LineLengthOfLine(line[1..], t);
    }
  }

  // ---------------------------------------------------------------------------
  // Rendering: the inverse of parsing on well-formed entries

  function Render(es: seq<Entry>): string {
    if |es| == 0 then "" else es[0].key + "=" + es[0].value + "\n" + Render(es[1..])
  }

  /** Rendering well-formed entries as `key=value\n` lines and parsing them gives the entries back. */
  lemma {:induction false} EntriesOfRender(es: seq<Entry>)
    requires forall i :: 0 <= i < |es| ==> WellFormed(es[i])
    ensures Entries(Render(es)) == es
  {
    if |es| > 0 {
      var e := es[0];
      var line := e.key + "=" + e.value;
      RenderedLine(e);
      assert Render(es) == (line + ['\n']) + Render(es[1..]);
      EntriesAppend(line + ['\n'], Render(es[1..]));
      SingleLine(line, '\n');
      SplitAtFirstEquals(e);
      EntriesOfRender(es[1..]);
    }
  }

  /** The line a well-formed entry renders to has no terminator and holds an `=`. */
  lemma RenderedLine(e: Entry)
    requires WellFormed(e)
    ensures NoTerminator(e.key + "=" + e.value) && '=' in e.key + "=" + e.value
  {
    var line := e.key + "=" + e.value;
    forall i | 0 <= i < |line| ensures !IsLineTerminator(line[i]) {
      if i < |e.key| { assert line[i] == e.key[i]; }
      else if i > |e.key| { assert line[i] == e.value[i - |e.key| - 1]; }
    }
    assert line[|e.key|] == '=';
  }

  lemma SplitAtFirstEquals(e: Entry)
    requires '=' !in e.key
    ensures SplitLine(e.key + "=" + e.value) == e
  {
    var line := e.key + "=" + e.value;
    var i := IndexOf(line, '=');
    assert line[..|e.key|] == e.key;
    assert line[|e.key|] == '=';
    assert line[..i] == e.key;
    assert line[i + 1..] == e.value;
  }

  /** Some listing of the map's pairs, one entry per key. */
  ghost function Listing(m: Config): (es: seq<Entry>)
    ensures |es| == |m|
    ensures forall i :: 0 <= i < |es| ==> es[i].key in m && m[es[i].key] == es[i].value
    ensures Fold(es) == m
    decreases |m|
  {
    if |m| == 0 then
      assert m == map[];
      []
    else
      var k :| k in m;
      var rest := m - {k};
      assert |rest| == |m| - 1;
      var init := Listing(rest);
      ListingStep(m, k, init)
  }

  ghost function ListingStep(m: Config, k: string, init: seq<Entry>): (es: seq<Entry>)
    requires k in m
    requires |init| == |m| - 1
    requires forall i :: 0 <= i < |init| ==> init[i].key in m - {k} && m[init[i].key] == init[i].value
    requires Fold(init) == m - {k}
    ensures |es| == |m|
    ensures forall i :: 0 <= i < |es| ==> es[i].key in m && m[es[i].key] == es[i].value
    ensures Fold(es) == m
  {
    var es := init + [Entry(k, m[k])];
    FoldSnoc(init, Entry(k, m[k]));
    assert (m - {k})[k := m[k]] == m;
    es
  }

  lemma FoldSnoc(init: seq<Entry>, e: Entry)
    ensures Fold(init + [e]) == Fold(init)[e.key := e.value]
  {
    assert (init + [e])[..|init|] == init;
  }

  /** A map whose keys hold no `=` or terminator and whose values hold no terminator
      survives being rendered as lines and read back. */
  lemma {:induction false} ReadRenderedConfig(m: Config)
    requires WellFormedConfig(m)
    ensures ReadGitConfig(Render(Listing(m))) == m
  {
    var es := Listing(m);
    EntriesOfRender(es);
  }

  /** What a run sees of the store git keeps: `git config --list --local` prints
      each pair as a `key=value` line, and `readGitConfig` parses that listing. */
  ghost function ReadBack(store: Config): Config {
    ReadGitConfig(Render(Listing(store)))
  }

  // ---------------------------------------------------------------------------
  // `ensureConfig`: what to do to bring one key to its target

  /** The git invocation `ensureConfig` makes, if any. */
  datatype Decision = Keep | SetValue(key: string, value: string) | Unset(key: string)

  /** Compares the snapshot's value with the target (`undefined` included) and picks the action. */
  function EnsureConfig(config: Config, key: string, target: Option<string>): (d: Decision)
    ensures d.Keep? <==> Get(config, key) == target
    ensures d.Unset? <==> target.None? && key in config
    ensures d.Unset? ==> d.key == key
    ensures d.SetValue? <==> target.Some? && Get(config, key) != target
    ensures d.SetValue? ==> d == SetValue(key, target.value)
  {
    if Get(config, key) == target then Keep
    else if target.None? then Unset(key)
    else SetValue(key, target.value)
  }

  /** The store after git carries out a decision. */
  function Apply(config: Config, d: Decision): Config {
    match d
    case Keep => config
    case SetValue(k, v) => config[k := v]
    case Unset(k) => config - {k}
  }

  /** The decisions applied one after another, as the awaited calls run. */
  function ApplyAll(config: Config, ds: seq<Decision>): Config
    decreases |ds|
  {
    if |ds| == 0 then config else ApplyAll(Apply(config, ds[0]), ds[1..])
  }

  /** The store after one `ensureConfig`: the key holds the target (absent when the
      target is absent), every other key is unchanged, and a repeat call is a no-op. */
  function Ensure(config: Config, key: string, target: Option<string>): (c: Config)
    ensures Get(c, key) == target
    ensures forall k :: k != key ==> Get(c, k) == Get(config, k)
    ensures EnsureConfig(c, key, target) == Keep
  {
    Apply(config, EnsureConfig(config, key, target))
  }
}

=== FILE: locals.dfy ===
/** Entries of an owner directory, as the local scan classifies them. */
module Locals {
  import opened GitConfig
  import opened MetadataCodec

  /** Distinct path kinds, kept apart by type as the source's branded strings are. */
  datatype OwnerDir = OwnerDir(path: string)

  datatype TopLevelDir = TopLevelDir(path: string)

  /** A child of the owner directory: either not a git working-tree root, or one,
      with its local config and the metadata decoded from it. */
  datatype LocalInfo =
    | NonGit(name: string, childPath: string)
    | Git(name: string, childPath: string, topLevel: TopLevelDir, config: Config, metadata: Metadata)

  type LocalGitInfo = l: LocalInfo | l.Git? witness Git("", "", TopLevelDir(""), map[], GetMetadata(map[]))
}

=== FILE: matcher.dfy ===
/** `matchLocalsToRemotes`: pairs local clones with catalog repositories by stable
    id, sets aside ambiguous matches, and splits the rest of the catalog into
    repositories to clone and repositories blocked by a same-named local entry. */
module Matcher {
  import opened Wrappers
  import opened Seqs
  import opened Strings
  import opened ReferenceData
  import opened Locals

  /** The content of a warning message, without its formatting. */
  datatype Message =
    | MultipleLocalsMatch(ownerDir: OwnerDir, url: string, sortedNames: seq<string>)
    | NameMismatch(url: string, childPath: string, ownerDir: OwnerDir, expectedName: string)
    | InTheWay(url: string, childPath: string)

  datatype Pair = Pair(local: LocalGitInfo, remote: Repository) {
    /** Paired by id. */
    predicate Valid() { MatchesId(remote, local) }
  }

  datatype AmbiguousLocalWarning = AmbiguousLocalWarning(message: Message, locals: seq<LocalInfo>, remote: Repository) {
    /** Two or more entries, all git entries carrying the remote's id. */
    predicate Valid() { |locals| >= 2 && forall j :: 0 <= j < |locals| ==> MatchesId(remote, locals[j]) }
  }

  datatype InTheWayWarning = InTheWayWarning(message: Message, locals: seq<LocalInfo>, remote: Repository) {
    /** Lists every entry of `all` with the remote's name, in order, and names the first. */
    predicate Explains(all: seq<LocalInfo>) {
      && locals == Filter(all, InTheWayOf(remote))
      && |locals| > 0
      && message == InTheWay(remote.url, locals[0].childPath)
    }
  }

  datatype NameMismatchWarning = NameMismatchWarning(message: Message, local: LocalGitInfo, remote: Repository)

  datatype Results = Results(pairedLocalsAndRemotes: seq<Pair>, toClone: seq<Repository>, unmatchedLocals: seq<LocalInfo>)

  datatype Warnings = Warnings(
    ambiguousLocalWarnings: seq<AmbiguousLocalWarning>,
    nameMismatchWarnings: seq<NameMismatchWarning>,
    somethingInTheWayPreventingClone: seq<InTheWayWarning>)

  datatype LocalRemoteMatchData = LocalRemoteMatchData(results: Results, warnings: Warnings)

  // ---------------------------------------------------------------------------
  // Matching by id

  /** A git entry whose stored id is the remote's id; an entry with no stored id matches nothing. */
  predicate MatchesId(remote: Repository, local: LocalInfo) {
    local.Git? && local.metadata.id == Some(remote.id)
  }

  function ClaimedBy(remote: Repository): LocalInfo -> bool {
    (l: LocalInfo) => MatchesId(remote, l)
  }

  /** The entries of `locals` whose stored id is the remote's, in their order. */
  function Matching(locals: seq<LocalInfo>, remote: Repository): (ms: seq<LocalInfo>)
    ensures forall i :: 0 <= i < |ms| ==> MatchesId(remote, ms[i])
  {
    Filter(locals, ClaimedBy(remote))
  }

  function NameOf(l: LocalInfo): string {
    l.name
  }

  /** The warning for a remote several entries claim: the message lists their names
      in scalar-value order, each name as often as it occurs. */
  function AmbiguityWarning(ownerDir: OwnerDir, matches: seq<LocalInfo>, remote: Repository): (w: AmbiguousLocalWarning)
    ensures w.message.MultipleLocalsMatch? && w.message.ownerDir == ownerDir && w.message.url == remote.url
    ensures Sorted(w.message.sortedNames) && multiset(w.message.sortedNames) == multiset(Map(matches, NameOf))
  {
    AmbiguousLocalWarning(MultipleLocalsMatch(ownerDir, remote.url, SortStrings(Map(matches, NameOf))), matches, remote)
  }

  /** The state after the first loop of the source: its four accumulators. */
  datatype IdPass = IdPass(
    paired: seq<Pair>,
    ambiguous: seq<AmbiguousLocalWarning>,
    unmatchedRemotes: seq<Repository>,
    unmatchedLocals: seq<LocalInfo>)

  /** The first loop of the source over the whole catalog: each remote is paired with
      the one entry claiming it, or warned about when several claim it, or left
      unmatched; entries claimed by no remote stay unmatched. */
  function PairById(ownerDir: OwnerDir, locals: seq<LocalInfo>, remotes: seq<Repository>): (p: IdPass)
    ensures forall i :: 0 <= i < |p.paired| ==> p.paired[i].Valid()
    ensures forall i :: 0 <= i < |p.ambiguous| ==> p.ambiguous[i].Valid()
    // every remote lands in exactly one of the three parts
    ensures multiset(Map(p.paired, PairRemote)) + multiset(Map(p.ambiguous, AmbiguousRemote)) + multiset(p.unmatchedRemotes)
            == multiset(remotes)
    // every entry lands in a pair, in one warning, or stays unmatched; none is used twice
    ensures multiset(Map(p.paired, PairLocal)) + multiset(AmbiguousLocals(p.ambiguous)) + multiset(p.unmatchedLocals)
            == multiset(locals)
    ensures p.unmatchedLocals == Filter(locals, UnclaimedBy(remotes))
  {
    PairByIdRemotes(ownerDir, locals, remotes);
    PairByIdLocals(ownerDir, locals, remotes);
    UnmatchedLocalsExact(ownerDir, locals, remotes);
    IdPassFrom(ownerDir, locals, remotes)
  }

  /** The first loop, from the remote `remotes[0]` on, with `unmatched` the entries
      not yet consumed: one match pairs, several matches make one warning, and every
      match is removed from further consideration. */
  function IdPassFrom(ownerDir: OwnerDir, unmatched: seq<LocalInfo>, remotes: seq<Repository>): (p: IdPass)
    ensures forall i :: 0 <= i < |p.paired| ==> p.paired[i].Valid()
    ensures forall i :: 0 <= i < |p.ambiguous| ==> p.ambiguous[i].Valid()
    ensures |p.paired| + |p.ambiguous| + |p.unmatchedRemotes| == |remotes|
    decreases |remotes|
  {
    if |remotes| == 0 then IdPass([], [], [], unmatched)
    else
      var remote := remotes[0];
      var matches := Matching(unmatched, remote);
      var rest := IdPassFrom(ownerDir, Filter(unmatched, Not(ClaimedBy(remote))), remotes[1..]);
      if |matches| == 1 then
        var pair := Pair(matches[0], remote);
        assert pair.Valid();
        PrependValidPair(pair, rest.paired);
        IdPass([pair] + rest.paired, rest.ambiguous, rest.unmatchedRemotes, rest.unmatchedLocals)
      else if |matches| > 1 then
        var warning := AmbiguityWarning(ownerDir, matches, remote);
        assert warning.Valid();
        PrependValidWarning(warning, rest.ambiguous);
        IdPass(rest.paired, [warning] + rest.ambiguous, rest.unmatchedRemotes, rest.unmatchedLocals)
      else
        IdPass(rest.paired, rest.ambiguous, [remote] + rest.unmatchedRemotes, rest.unmatchedLocals)
  }

  lemma PrependValidPair(pair: Pair, ps: seq<Pair>)
    requires pair.Valid() && forall i :: 0 <= i < |ps| ==> ps[i].Valid()
    ensures forall i :: 0 <= i < |[pair] + ps| ==> ([pair] + ps)[i].Valid()
  {
  }

  lemma PrependValidWarning(w: AmbiguousLocalWarning, ws: seq<AmbiguousLocalWarning>)
    requires w.Valid() && forall i :: 0 <= i < |ws| ==> ws[i].Valid()
    ensures forall i :: 0 <= i < |[w] + ws| ==> ([w] + ws)[i].Valid()
  {
  }

  // ---------------------------------------------------------------------------
  // Renamed repositories

  function NamesDiffer(p: Pair): bool {
    p.local.name != p.remote.name
  }

  function WarnedPair(w: NameMismatchWarning): Pair {
    Pair(w.local, w.remote)
  }

  function MismatchWarning(ownerDir: OwnerDir): Pair -> NameMismatchWarning {
    (p: Pair) => NameMismatchWarning(NameMismatch(p.remote.url, p.local.childPath, ownerDir, p.remote.name), p.local, p.remote)
  }

  // ---------------------------------------------------------------------------
  // Something in the way

  /** Case-insensitive name equality (`toLocaleLowerCase` on both sides). */
  function InTheWayOf(remote: Repository): LocalInfo -> bool {
    (l: LocalInfo) => Lower(l.name) == Lower(remote.name)
  }

  /** Some entry, of any kind, has the remote's name up to case. */
  function Blocked(locals: seq<LocalInfo>): Repository -> bool {
    (r: Repository) => |Filter(locals, InTheWayOf(r))| > 0
  }

  datatype CloneSplit = CloneSplit(toClone: seq<Repository>, blocked: seq<InTheWayWarning>)

  /** The second loop: an unmatched remote is cloned unless some local entry, of any
      kind and whatever happened to it above, has its name. */
  function SplitUnmatched(locals: seq<LocalInfo>, unmatchedRemotes: seq<Repository>): (s: CloneSplit)
    ensures |s.toClone| + |s.blocked| == |unmatchedRemotes|
    ensures forall i :: 0 <= i < |s.toClone| ==> !Blocked(locals)(s.toClone[i])
    ensures forall i :: 0 <= i < |s.blocked| ==> s.blocked[i].Explains(locals)
    decreases |unmatchedRemotes|
  {
    if |unmatchedRemotes| == 0 then CloneSplit([], [])
    else
      var remote := unmatchedRemotes[0];
      var rest := SplitUnmatched(locals, unmatchedRemotes[1..]);
      var things := Filter(locals, InTheWayOf(remote));
      if |things| > 0 then
        var warning := InTheWayWarning(InTheWay(remote.url, things[0].childPath), things, remote);
        PrependExplained(warning, rest.blocked, locals);
        CloneSplit(rest.toClone, [warning] + rest.blocked)
      else
        PrependUnblocked(remote, rest.toClone, locals);
        CloneSplit([remote] + rest.toClone, rest.blocked)
  }

  lemma PrependExplained(w: InTheWayWarning, ws: seq<InTheWayWarning>, locals: seq<LocalInfo>)
    requires w.Explains(locals) && forall i :: 0 <= i < |ws| ==> ws[i].Explains(locals)
    ensures forall i :: 0 <= i < |[w] + ws| ==> ([w] + ws)[i].Explains(locals)
  {
  }

  lemma PrependUnblocked(r: Repository, rs: seq<Repository>, locals: seq<LocalInfo>)
    requires !Blocked(locals)(r) && forall i :: 0 <= i < |rs| ==> !Blocked(locals)(rs[i])
    ensures forall i :: 0 <= i < |[r] + rs| ==> !Blocked(locals)(([r] + rs)[i])
  {
  }

  // ---------------------------------------------------------------------------
  // The whole matcher

  function MatchLocalsToRemotes(ownerDir: OwnerDir, locals: seq<LocalInfo>, remotes: seq<Repository>): (m: LocalRemoteMatchData)
    ensures forall i :: 0 <= i < |m.results.pairedLocalsAndRemotes| ==> m.results.pairedLocalsAndRemotes[i].Valid()
    ensures forall i :: 0 <= i < |m.warnings.ambiguousLocalWarnings| ==> m.warnings.ambiguousLocalWarnings[i].Valid()
    ensures m.results.unmatchedLocals == Filter(locals, UnclaimedBy(remotes))
    ensures |m.results.pairedLocalsAndRemotes| + |m.warnings.ambiguousLocalWarnings|
            + |m.results.toClone| + |m.warnings.somethingInTheWayPreventingClone| == |remotes|
    // the name-mismatch warnings are, in order, the pairs whose names differ
    ensures Map(m.warnings.nameMismatchWarnings, WarnedPair) == Filter(m.results.pairedLocalsAndRemotes, NamesDiffer)
    ensures forall i :: 0 <= i < |m.warnings.nameMismatchWarnings| ==>
              var w := m.warnings.nameMismatchWarnings[i];
              w.local.name != w.remote.name && w.message == NameMismatch(w.remote.url, w.local.childPath, ownerDir, w.remote.name)
    // a remote to clone has no same-named entry; a blocked one's warning lists every such entry
    ensures forall i :: 0 <= i < |m.results.toClone| ==> !Blocked(locals)(m.results.toClone[i])
    ensures forall i :: 0 <= i < |m.warnings.somethingInTheWayPreventingClone| ==>
              m.warnings.somethingInTheWayPreventingClone[i].Explains(locals)
  {
    var p := PairById(ownerDir, locals, remotes);
    var s := SplitUnmatched(locals, p.unmatchedRemotes);
    LocalRemoteMatchData(
      Results(p.paired, s.toClone, p.unmatchedLocals),
      Warnings(p.ambiguous, Map(Filter(p.paired, NamesDiffer), MismatchWarning(ownerDir)), s.blocked))
  }

  // ---------------------------------------------------------------------------
  // Properties

  function PairLocal(p: Pair): LocalInfo { p.local }

  function PairRemote(p: Pair): Repository { p.remote }

  function AmbiguousRemote(w: AmbiguousLocalWarning): Repository { w.remote }

  function BlockedRemote(w: InTheWayWarning): Repository { w.remote }

  /** All the entries the ambiguity warnings hold, warning by warning. */
  function AmbiguousLocals(ws: seq<AmbiguousLocalWarning>): seq<LocalInfo> {
    if |ws| == 0 then [] else ws[0].locals + AmbiguousLocals(ws[1..])
  }

  /** No remote of the catalog claims the entry by id. */
  function UnclaimedBy(remotes: seq<Repository>): LocalInfo -> bool {
    (l: LocalInfo) => forall i :: 0 <= i < |remotes| ==> !MatchesId(remotes[i], l)
  }

  /** Every remote of the catalog, in order, lands in exactly one of: a pair, an
      ambiguity warning, or the list of unmatched remotes. */
  lemma {:induction false} PairByIdRemotes(ownerDir: OwnerDir, unmatched: seq<LocalInfo>, remotes: seq<Repository>)
    ensures var p := IdPassFrom(ownerDir, unmatched, remotes);
      multiset(Map(p.paired, PairRemote)) + multiset(Map(p.ambiguous, AmbiguousRemote)) + multiset(p.unmatchedRemotes)
        == multiset(remotes)
    decreases |remotes|
  {
    if |remotes| > 0 {
      var remote := remotes[0];
      var p := IdPassFrom(ownerDir, unmatched, remotes);
      var rest := IdPassFrom(ownerDir, Filter(unmatched, Not(ClaimedBy(remote))), remotes[1..]);
      PairByIdRemotes(ownerDir, Filter(unmatched, Not(ClaimedBy(remote))), remotes[1..]);
      var matches := Matching(unmatched, remote);
      var a, b, c := Map(rest.paired, PairRemote), Map(rest.ambiguous, AmbiguousRemote), rest.unmatchedRemotes;
      if |matches| == 1 {
        var pair := Pair(matches[0], remote);
        assert p.paired == [pair] + rest.paired;
        MapCons(pair, rest.paired, PairRemote);
        ThreeWayStep(a, b, c, [remote] + a, b, c, remotes);
      } else if |matches| > 1 {
        var warning := AmbiguityWarning(ownerDir, matches, remote);
        assert p.ambiguous == [warning] + rest.ambiguous;
        MapCons(warning, rest.ambiguous, AmbiguousRemote);
        ThreeWayStep(a, b, c, a, [remote] + b, c, remotes);
      } else {
        ThreeWayStep(a, b, c, a, b, [remote] + c, remotes);
      }
    }

  }

  /** Adding one element to one of three parts of a split adds it to the whole. */
  lemma ThreeWayStep<T>(a: seq<T>, b: seq<T>, c: seq<T>, a': seq<T>, b': seq<T>, c': seq<T>, whole: seq<T>)
    requires |whole| > 0
    requires multiset(a) + multiset(b) + multiset(c) == multiset(whole[1..])
    requires || (a' == [whole[0]] + a && b' == b && c' == c)
             || (a' == a && b' == [whole[0]] + b && c' == c)
             || (a' == a && b' == b && c' == [whole[0]] + c)
    ensures multiset(a') + multiset(b') + multiset(c') == multiset(whole)
  {
    assert whole == [whole[0]] + whole[1..];
  }

  /** Every local entry lands in exactly one of: a pair, one ambiguity warning, or
      the unmatched locals; none is used twice. */
  lemma {:induction false} PairByIdLocals(ownerDir: OwnerDir, unmatched: seq<LocalInfo>, remotes: seq<Repository>)
    ensures var p := IdPassFrom(ownerDir, unmatched, remotes);
      multiset(Map(p.paired, PairLocal)) + multiset(AmbiguousLocals(p.ambiguous)) + multiset(p.unmatchedLocals)
        == multiset(unmatched)
    decreases |remotes|
  {
    if |remotes| > 0 {
      var remote := remotes[0];
      var p := IdPassFrom(ownerDir, unmatched, remotes);
      var remaining := Filter(unmatched, Not(ClaimedBy(remote)));
      var rest := IdPassFrom(ownerDir, remaining, remotes[1..]);
      PairByIdLocals(ownerDir, remaining, remotes[1..]);
      FilterPartition(unmatched, ClaimedBy(remote));
      PairByIdLocalsStep(ownerDir, unmatched, remotes);
      MovedInto(Map(rest.paired, PairLocal), AmbiguousLocals(rest.ambiguous), rest.unmatchedLocals,
        Map(p.paired, PairLocal), AmbiguousLocals(p.ambiguous), Matching(unmatched, remote), remaining, unmatched);
    }
  }

  /** One step of the first loop moves the entries matching the remote into a pair
      or into a warning, or moves nothing. */
  lemma PairByIdLocalsStep(ownerDir: OwnerDir, unmatched: seq<LocalInfo>, remotes: seq<Repository>)
    requires |remotes| > 0
    ensures var p := IdPassFrom(ownerDir, unmatched, remotes);
      var rest := IdPassFrom(ownerDir, Filter(unmatched, Not(ClaimedBy(remotes[0]))), remotes[1..]);
      var moved := Matching(unmatched, remotes[0]);
      && p.unmatchedLocals == rest.unmatchedLocals
      && (|| (Map(p.paired, PairLocal) == moved + Map(rest.paired, PairLocal) && AmbiguousLocals(p.ambiguous) == AmbiguousLocals(rest.ambiguous))
         || (Map(p.paired, PairLocal) == Map(rest.paired, PairLocal) && AmbiguousLocals(p.ambiguous) == moved + AmbiguousLocals(rest.ambiguous))
         || (moved == [] && Map(p.paired, PairLocal) == Map(rest.paired, PairLocal) && AmbiguousLocals(p.ambiguous) == AmbiguousLocals(rest.ambiguous)))
  {
    var remote := remotes[0];
    var p := IdPassFrom(ownerDir, unmatched, remotes);
    var rest := IdPassFrom(ownerDir, Filter(unmatched, Not(ClaimedBy(remote))), remotes[1..]);
    var matches := Matching(unmatched, remote);
    if |matches| == 1 {
      var pair := Pair(matches[0], remote);
      assert p.paired == [pair] + rest.paired;
      MapCons(pair, rest.paired, PairLocal);
      assert matches == [matches[0]];
    } else if |matches| > 1 {
      var warning := AmbiguityWarning(ownerDir, matches, remote);
      assert p.ambiguous == [warning] + rest.ambiguous;
      assert p.ambiguous[1..] == rest.ambiguous;
    }
  }

  /** The entries `moved` that leave `whole` for one of the first two parts of a
      split of the rest make a split of `whole`. */
  lemma MovedInto<T>(a: seq<T>, b: seq<T>, c: seq<T>, a': seq<T>, b': seq<T>, moved: seq<T>, rest: seq<T>, whole: seq<T>)
    requires multiset(a) + multiset(b) + multiset(c) == multiset(rest)
    requires multiset(moved) + multiset(rest) == multiset(whole)
    requires || (a' == moved + a && b' == b)
             || (a' == a && b' == moved + b)
             || (moved == [] && a' == a && b' == b)
    ensures multiset(a') + multiset(b') + multiset(c) == multiset(whole)
  {
  }

  /** The unmatched locals are exactly, and in input order, the entries no remote claims by id. */
  lemma {:induction false} UnmatchedLocalsExact(ownerDir: OwnerDir, unmatched: seq<LocalInfo>, remotes: seq<Repository>)
    ensures IdPassFrom(ownerDir, unmatched, remotes).unmatchedLocals == Filter(unmatched, UnclaimedBy(remotes))
    decreases |remotes|
  {
    if |remotes| == 0 {
      FilterKeepsAll(unmatched, UnclaimedBy(remotes));
    } else {
      PairByIdLocalsStep(ownerDir, unmatched, remotes);
      UnmatchedLocalsExact(ownerDir, Filter(unmatched, Not(ClaimedBy(remotes[0]))), remotes[1..]);
      UnclaimedStep(unmatched, remotes);
    }
  }

  /** Unclaimed by every remote is unclaimed by the first and then by the others. */
  lemma UnclaimedStep(unmatched: seq<LocalInfo>, remotes: seq<Repository>)
    requires |remotes| > 0
    ensures Filter(Filter(unmatched, Not(ClaimedBy(remotes[0]))), UnclaimedBy(remotes[1..])) == Filter(unmatched, UnclaimedBy(remotes))
  {
    var later := remotes[1..];
    FilterFilter(unmatched, Not(ClaimedBy(remotes[0])), UnclaimedBy(later));
    forall i | 0 <= i < |unmatched|
      ensures And(Not(ClaimedBy(remotes[0])), UnclaimedBy(later))(unmatched[i]) == UnclaimedBy(remotes)(unmatched[i])
    {
      var l := unmatched[i];
      assert forall j :: 0 <= j < |later| ==> later[j] == remotes[j + 1];
      if UnclaimedBy(remotes)(l) {
        assert !MatchesId(remotes[0], l);
      }
    }
    FilterCongruent(unmatched, And(Not(ClaimedBy(remotes[0])), UnclaimedBy(later)), UnclaimedBy(remotes));
  }

  // ---------------------------------------------------------------------------
  // The second loop, exactly

  /** The remotes to clone are the unblocked unmatched remotes and the warnings are
      for the blocked ones, each list in the order of the unmatched remotes. */
  lemma {:induction false} SplitUnmatchedExact(locals: seq<LocalInfo>, unmatchedRemotes: seq<Repository>)
    ensures var s := SplitUnmatched(locals, unmatchedRemotes);
      && s.toClone == Filter(unmatchedRemotes, Not(Blocked(locals)))
      && Map(s.blocked, BlockedRemote) == Filter(unmatchedRemotes, Blocked(locals))
    decreases |unmatchedRemotes|
  {
    if |unmatchedRemotes| > 0 {
      var remote := unmatchedRemotes[0];
      var rest := SplitUnmatched(locals, unmatchedRemotes[1..]);
      SplitUnmatchedExact(locals, unmatchedRemotes[1..]);
      var things := Filter(locals, InTheWayOf(remote));
      if |things| > 0 {
        var warning := InTheWayWarning(InTheWay(remote.url, things[0].childPath), things, remote);
        MapCons(warning, rest.blocked, BlockedRemote);
      }
    }
  }

  /** A remote is blocked exactly when some entry's name equals its name up to case. */
  lemma BlockedIff(locals: seq<LocalInfo>, r: Repository)
    ensures Blocked(locals)(r) <==> exists i :: 0 <= i < |locals| && Lower(locals[i].name) == Lower(r.name)
  {
    if Blocked(locals)(r) {
      var x := Filter(locals, InTheWayOf(r))[0];
      FilterMembers(locals, InTheWayOf(r), x);
      var i :| 0 <= i < |locals| && locals[i] == x;
    } else {
      forall i | 0 <= i < |locals|
        ensures Lower(locals[i].name) != Lower(r.name)
      {
        FilterMembers(locals, InTheWayOf(r), locals[i]);
      }
    }
  }

  // ---------------------------------------------------------------------------
  // The first loop against a reference classification

  /** No two catalog repositories share an id (GitHub ids are unique). */
  predicate DistinctIds(remotes: seq<Repository>) {
    forall i, j :: 0 <= i < j < |remotes| ==> remotes[i].id != remotes[j].id
  }

  /** Exactly one entry of `locals` claims the remote. */
  function ClaimedOnce(locals: seq<LocalInfo>): Repository -> bool {
    (r: Repository) => |Matching(locals, r)| == 1
  }

  /** Two or more entries of `locals` claim the remote. */
  function Contested(locals: seq<LocalInfo>): Repository -> bool {
    (r: Repository) => |Matching(locals, r)| > 1
  }

  /** No entry of `locals` claims the remote. */
  function Unclaimed(locals: seq<LocalInfo>): Repository -> bool {
    (r: Repository) => |Matching(locals, r)| == 0
  }

  /** Removing the entries another id claims leaves the entries claiming `r` alone. */
  lemma MatchingAfterRemoval(unmatched: seq<LocalInfo>, r0: Repository, r: Repository)
    requires r.id != r0.id
    ensures Matching(Filter(unmatched, Not(ClaimedBy(r0))), r) == Matching(unmatched, r)
  {
    FilterFilter(unmatched, Not(ClaimedBy(r0)), ClaimedBy(r));
    FilterCongruent(unmatched, And(Not(ClaimedBy(r0)), ClaimedBy(r)), ClaimedBy(r));
  }

  /** With distinct ids, the later remotes see the same claims after the first loop
      step as before it. */
  lemma ClaimsUnchangedLater(unmatched: seq<LocalInfo>, remotes: seq<Repository>)
    requires |remotes| > 0 && DistinctIds(remotes)
    ensures DistinctIds(remotes[1..])
    ensures forall k :: 0 <= k < |remotes[1..]| ==>
      Matching(Filter(unmatched, Not(ClaimedBy(remotes[0]))), remotes[1..][k]) == Matching(unmatched, remotes[1..][k])
  {
    forall k | 0 <= k < |remotes[1..]|
      ensures Matching(Filter(unmatched, Not(ClaimedBy(remotes[0]))), remotes[1..][k]) == Matching(unmatched, remotes[1..][k])
    {
      assert remotes[1..][k] == remotes[k + 1];
      MatchingAfterRemoval(unmatched, remotes[0], remotes[k + 1]);
    }
  }

  /** A later remote differs in id from the first. */
  lemma LaterIdFresh(remotes: seq<Repository>, x: Repository)
    requires |remotes| > 0 && DistinctIds(remotes) && x in remotes[1..]
    ensures x.id != remotes[0].id && x in remotes
  {
    var k :| 0 <= k < |remotes[1..]| && remotes[1..][k] == x;
    assert remotes[k + 1] == x;
  }

  /** One step of the first loop, as seen from the remotes. */
  lemma PairByIdRemotesStep(ownerDir: OwnerDir, unmatched: seq<LocalInfo>, remotes: seq<Repository>)
    requires |remotes| > 0
    ensures var p := IdPassFrom(ownerDir, unmatched, remotes);
      var rest := IdPassFrom(ownerDir, Filter(unmatched, Not(ClaimedBy(remotes[0]))), remotes[1..]);
      var matches := Matching(unmatched, remotes[0]);
      && (|matches| == 1 ==>
            p == rest.(paired := [Pair(matches[0], remotes[0])] + rest.paired))
      && (|matches| > 1 ==>
            p == rest.(ambiguous := [AmbiguityWarning(ownerDir, matches, remotes[0])] + rest.ambiguous))
      && (|matches| == 0 ==>
            p == rest.(unmatchedRemotes := [remotes[0]] + rest.unmatchedRemotes))
  {
  }

  /** With distinct ids, the paired remotes are exactly those one entry claims, the
      ambiguous ones those several claim and the unmatched ones those none claims,
      each in catalog order. */
  lemma {:induction false} PairByIdClassifies(ownerDir: OwnerDir, unmatched: seq<LocalInfo>, remotes: seq<Repository>)
    requires DistinctIds(remotes)
    ensures var p := IdPassFrom(ownerDir, unmatched, remotes);
      && Map(p.paired, PairRemote) == Filter(remotes, ClaimedOnce(unmatched))
      && Map(p.ambiguous, AmbiguousRemote) == Filter(remotes, Contested(unmatched))
      && p.unmatchedRemotes == Filter(remotes, Unclaimed(unmatched))
    decreases |remotes|
  {
    if |remotes| > 0 {
      var remote, later := remotes[0], remotes[1..];
      var remaining := Filter(unmatched, Not(ClaimedBy(remote)));
      var rest := IdPassFrom(ownerDir, remaining, later);
      ClaimsUnchangedLater(unmatched, remotes);
      PairByIdClassifies(ownerDir, remaining, later);
      FilterCongruent(later, ClaimedOnce(remaining), ClaimedOnce(unmatched));
      FilterCongruent(later, Contested(remaining), Contested(unmatched));
      FilterCongruent(later, Unclaimed(remaining), Unclaimed(unmatched));
      PairByIdRemotesStep(ownerDir, unmatched, remotes);
      var matches := Matching(unmatched, remote);
      if |matches| == 1 {
        MapCons(Pair(matches[0], remote), rest.paired, PairRemote);
      } else if |matches| > 1 {
        MapCons(AmbiguityWarning(ownerDir, matches, remote), rest.ambiguous, AmbiguousRemote);
      }
    }
  }

  /** The pair's remote is in the catalog and its entry is the only one claiming it. */
  predicate SoleClaim(unmatched: seq<LocalInfo>, remotes: seq<Repository>, pair: Pair) {
    pair.remote in remotes && Matching(unmatched, pair.remote) == [pair.local]
  }

  /** The warning's remote is in the catalog and the warning lists every entry claiming it. */
  predicate AllClaims(ownerDir: OwnerDir, unmatched: seq<LocalInfo>, remotes: seq<Repository>, w: AmbiguousLocalWarning) {
    w.remote in remotes && w == AmbiguityWarning(ownerDir, Matching(unmatched, w.remote), w.remote)
  }

  function SoleClaimIn(unmatched: seq<LocalInfo>, remotes: seq<Repository>): Pair -> bool {
    (pair: Pair) => SoleClaim(unmatched, remotes, pair)
  }

  function AllClaimsIn(ownerDir: OwnerDir, unmatched: seq<LocalInfo>, remotes: seq<Repository>): AmbiguousLocalWarning -> bool {
    (w: AmbiguousLocalWarning) => AllClaims(ownerDir, unmatched, remotes, w)
  }

  lemma LaterSoleClaims(unmatched: seq<LocalInfo>, remotes: seq<Repository>, ps: seq<Pair>)
    requires |remotes| > 0 && DistinctIds(remotes)
    requires All(ps, SoleClaimIn(Filter(unmatched, Not(ClaimedBy(remotes[0]))), remotes[1..]))
    ensures All(ps, SoleClaimIn(unmatched, remotes))
  {
    forall j | 0 <= j < |ps|
      ensures SoleClaim(unmatched, remotes, ps[j])
    {
      LaterIdFresh(remotes, ps[j].remote);
      MatchingAfterRemoval(unmatched, remotes[0], ps[j].remote);
    }
  }

  lemma LaterAllClaims(ownerDir: OwnerDir, unmatched: seq<LocalInfo>, remotes: seq<Repository>, ws: seq<AmbiguousLocalWarning>)
    requires |remotes| > 0 && DistinctIds(remotes)
    requires All(ws, AllClaimsIn(ownerDir, Filter(unmatched, Not(ClaimedBy(remotes[0]))), remotes[1..]))
    ensures All(ws, AllClaimsIn(ownerDir, unmatched, remotes))
  {
    forall j | 0 <= j < |ws|
      ensures AllClaims(ownerDir, unmatched, remotes, ws[j])
    {
      LaterIdFresh(remotes, ws[j].remote);
      MatchingAfterRemoval(unmatched, remotes[0], ws[j].remote);
    }
  }

  /** With distinct ids, each pair holds the one entry that claims its remote. */
  lemma {:induction false} PairsAreSoleClaims(ownerDir: OwnerDir, unmatched: seq<LocalInfo>, remotes: seq<Repository>)
    requires DistinctIds(remotes)
    ensures All(IdPassFrom(ownerDir, unmatched, remotes).paired, SoleClaimIn(unmatched, remotes))
    decreases |remotes|
  {
    if |remotes| > 0 {
      var remote := remotes[0];
      var remaining := Filter(unmatched, Not(ClaimedBy(remote)));
      var rest := IdPassFrom(ownerDir, remaining, remotes[1..]);
      ClaimsUnchangedLater(unmatched, remotes);
      PairsAreSoleClaims(ownerDir, remaining, remotes[1..]);
      LaterSoleClaims(unmatched, remotes, rest.paired);
      PairByIdRemotesStep(ownerDir, unmatched, remotes);
      var matches := Matching(unmatched, remote);
      if |matches| == 1 {
        assert matches == [matches[0]];
        PrependAll(Pair(matches[0], remote), rest.paired, SoleClaimIn(unmatched, remotes));
      }
    }
  }

  /** With distinct ids, each ambiguity warning holds, in order, all the entries that
      claim its remote. */
  lemma {:induction false} WarningsAreAllClaims(ownerDir: OwnerDir, unmatched: seq<LocalInfo>, remotes: seq<Repository>)
    requires DistinctIds(remotes)
    ensures All(IdPassFrom(ownerDir, unmatched, remotes).ambiguous, AllClaimsIn(ownerDir, unmatched, remotes))
    decreases |remotes|
  {
    if |remotes| > 0 {
      var remote := remotes[0];
      var remaining := Filter(unmatched, Not(ClaimedBy(remote)));
      var rest := IdPassFrom(ownerDir, remaining, remotes[1..]);
      ClaimsUnchangedLater(unmatched, remotes);
      WarningsAreAllClaims(ownerDir, remaining, remotes[1..]);
      LaterAllClaims(ownerDir, unmatched, remotes, rest.ambiguous);
      PairByIdRemotesStep(ownerDir, unmatched, remotes);
      var matches := Matching(unmatched, remote);
      if |matches| > 1 {
        PrependAll(AmbiguityWarning(ownerDir, matches, remote), rest.ambiguous, AllClaimsIn(ownerDir, unmatched, remotes));
      }
    }
  }

  // ---------------------------------------------------------------------------
  // The whole matcher

  /** Every catalog repository ends up in exactly one place: a pair, an ambiguity
      warning, the clone list, or a something-in-the-way warning. */
  lemma MatchRemotesPartition(ownerDir: OwnerDir, locals: seq<LocalInfo>, remotes: seq<Repository>)
    ensures var m := MatchLocalsToRemotes(ownerDir, locals, remotes);
      multiset(Map(m.results.pairedLocalsAndRemotes, PairRemote))
        + multiset(Map(m.warnings.ambiguousLocalWarnings, AmbiguousRemote))
        + multiset(m.results.toClone)
        + multiset(Map(m.warnings.somethingInTheWayPreventingClone, BlockedRemote))
        == multiset(remotes)
  {
    var p := IdPassFrom(ownerDir, locals, remotes);
    PairByIdRemotes(ownerDir, locals, remotes);
    SplitUnmatchedExact(locals, p.unmatchedRemotes);
    FilterPartition(p.unmatchedRemotes, Blocked(locals));
  }

  /** Every local entry ends up in exactly one place: a pair, one ambiguity warning,
      or the unmatched entries. */
  lemma MatchLocalsPartition(ownerDir: OwnerDir, locals: seq<LocalInfo>, remotes: seq<Repository>)
    ensures var m := MatchLocalsToRemotes(ownerDir, locals, remotes);
      multiset(Map(m.results.pairedLocalsAndRemotes, PairLocal))
        + multiset(AmbiguousLocals(m.warnings.ambiguousLocalWarnings))
        + multiset(m.results.unmatchedLocals)
        == multiset(locals)
  {
    PairByIdLocals(ownerDir, locals, remotes);
  }

  /** Not claimed by id and blocked by nothing. */
  function Clonable(locals: seq<LocalInfo>): Repository -> bool {
    (r: Repository) => Unclaimed(locals)(r) && !Blocked(locals)(r)
  }

  /** Not claimed by id, but blocked by a same-named entry. */
  function Obstructed(locals: seq<LocalInfo>): Repository -> bool {
    (r: Repository) => Unclaimed(locals)(r) && Blocked(locals)(r)
  }

  /** With distinct ids, the matcher's result against a per-remote classification:
      how many entries claim the remote by id, and whether an entry has its name. */
  lemma MatchClassifies(ownerDir: OwnerDir, locals: seq<LocalInfo>, remotes: seq<Repository>)
    requires DistinctIds(remotes)
    ensures var m := MatchLocalsToRemotes(ownerDir, locals, remotes);
      && Map(m.results.pairedLocalsAndRemotes, PairRemote) == Filter(remotes, ClaimedOnce(locals))
      && All(m.results.pairedLocalsAndRemotes, SoleClaimIn(locals, remotes))
      && Map(m.warnings.ambiguousLocalWarnings, AmbiguousRemote) == Filter(remotes, Contested(locals))
      && All(m.warnings.ambiguousLocalWarnings, AllClaimsIn(ownerDir, locals, remotes))
      && m.results.toClone == Filter(remotes, Clonable(locals))
      && Map(m.warnings.somethingInTheWayPreventingClone, BlockedRemote) == Filter(remotes, Obstructed(locals))
  {
    var p := IdPassFrom(ownerDir, locals, remotes);
    PairByIdClassifies(ownerDir, locals, remotes);
    PairsAreSoleClaims(ownerDir, locals, remotes);
    WarningsAreAllClaims(ownerDir, locals, remotes);
    SplitUnmatchedExact(locals, p.unmatchedRemotes);
    FilterFilter(remotes, Unclaimed(locals), Not(Blocked(locals)));
    FilterCongruent(remotes, And(Unclaimed(locals), Not(Blocked(locals))), Clonable(locals));
    FilterFilter(remotes, Unclaimed(locals), Blocked(locals));
    FilterCongruent(remotes, And(Unclaimed(locals), Blocked(locals)), Obstructed(locals));
  }
}

=== FILE: metadata_codec.dfy ===
/** The metadata a clone carries about its remote repository: seventeen
    `github.repo.*` git-config keys, written by `setMetadata` and read back by
    `getMetadata`. */
module MetadataCodec {
  import opened Wrappers
  import opened Seqs
  import opened ReferenceData
  import opened GitConfig

  const IdKey: string := "github.repo.id"
  const NameKey: string := "github.repo.name"
  const OwnerLoginKey: string := "github.repo.owner.login"
  const VisibilityKey: string := "github.repo.visibility"
  const DefaultBranchRefNameKey: string := "github.repo.defaultbranchref.name"
  const UrlKey: string := "github.repo.url"

  const IsArchivedKey: string := "github.repo.isarchived"
  const IsEmptyKey: string := "github.repo.isempty"
  const IsForkKey: string := "github.repo.isfork"
  const IsLockedKey: string := "github.repo.islocked"
  const IsMirrorKey: string := "github.repo.ismirror"
  const IsPrivateKey: string := "github.repo.isprivate"
  const IsTemplateKey: string := "github.repo.istemplate"

  const CreatedAtKey: string := "github.repo.createdat"
  const UpdatedAtKey: string := "github.repo.updatedat"
  const PushedAtKey: string := "github.repo.pushedat"
  const ArchivedAtKey: string := "github.repo.archivedat"

  /** The keys in the order `setMetadata` visits them. */
  const MetadataKeys: seq<string> := [
    IdKey, NameKey, OwnerLoginKey, DefaultBranchRefNameKey, VisibilityKey, UrlKey,
    IsArchivedKey, IsEmptyKey, IsForkKey, IsLockedKey, IsMirrorKey, IsPrivateKey, IsTemplateKey,
    CreatedAtKey, UpdatedAtKey, PushedAtKey, ArchivedAtKey
  ]

  /** A partial projection of a repository; every field may be unknown. */
  datatype Metadata = Metadata(
    id: Option<string>,
    name: Option<string>,
    owner: Option<Owner>,
    visibility: Option<string>,
    defaultBranchRef: Option<BranchRef>,
    url: Option<string>,
    isArchived: Option<bool>,
    isEmpty: Option<bool>,
    isFork: Option<bool>,
    isLocked: Option<bool>,
    isMirror: Option<bool>,
    isPrivate: Option<bool>,
    isTemplate: Option<bool>,
    createdAt: Option<string>,
    updatedAt: Option<string>,
    pushedAt: Option<string>,
    archivedAt: Option<string>
  )

  // ---------------------------------------------------------------------------
  // Encoding

  function FlagText(b: bool): string {
    if b then "true" else "false"
  }

  /** The value `setMetadata` passes to `ensureConfig` for each key. Absent optional
      values become the empty string; flags become `"true"` or `"false"`. */
  function TargetValue(repo: Repository, key: string): string {
    if key == IdKey then repo.id
    else if key == NameKey then repo.name
    else if key == OwnerLoginKey then repo.owner.login
    else if key == DefaultBranchRefNameKey then
      (if repo.defaultBranchRef.Some? then repo.defaultBranchRef.value.name else "")
    else if key == VisibilityKey then repo.visibility
    else if key == UrlKey then repo.url
    else if key == IsArchivedKey then FlagText(repo.isArchived)
    else if key == IsEmptyKey then FlagText(repo.isEmpty)
    else if key == IsForkKey then FlagText(repo.isFork)
    else if key == IsLockedKey then FlagText(repo.isLocked)
    else if key == IsMirrorKey then FlagText(repo.isMirror)
    else if key == IsPrivateKey then FlagText(repo.isPrivate)
    else if key == IsTemplateKey then FlagText(repo.isTemplate)
    else if key == CreatedAtKey then repo.createdAt
    else if key == UpdatedAtKey then repo.updatedAt.GetOr("")
    else if key == PushedAtKey then repo.pushedAt.GetOr("")
    else if key == ArchivedAtKey then repo.archivedAt.GetOr("")
    else ""
  }

  /** The seventeen target entries, in `setMetadata`'s order, one per distinct key. */
  function Encode(repo: Repository): (es: seq<Entry>)
    ensures |es| == |MetadataKeys| == 17
    ensures forall i :: 0 <= i < |es| ==> es[i].key == MetadataKeys[i]
    ensures DistinctKeys(es)
  {
    MetadataKeysDistinct();
    Map(MetadataKeys, (k: string) => Entry(k, TargetValue(repo, k)))
  }

  /** No two of the seventeen keys coincide. */
  lemma MetadataKeysDistinct()
    ensures forall i, j :: 0 <= i < j < |MetadataKeys| ==> MetadataKeys[i] != MetadataKeys[j]
  {
  }

  /** Whether the snapshot's value of an entry's key differs from the entry's value. */
  function Stale(config: Config): Entry -> bool {
    (e: Entry) => Get(config, e.key) != Some(e.value)
  }

  function AsWrite(e: Entry): Decision {
    SetValue(e.key, e.value)
  }

  /** One `ensureConfig` per target against the same snapshot; the non-trivial decisions in order. */
  function EnsureAll(config: Config, targets: seq<Entry>): (writes: seq<Decision>)
    ensures |writes| <= |targets|
  {
    if |targets| == 0 then []
    else
      var d := EnsureConfig(config, targets[0].key, Some(targets[0].value));
      (if d.Keep? then [] else [d]) + EnsureAll(config, targets[1..])
  }

  /** `setMetadata` without the process calls: the config writes it issues, given
      the snapshot it reads once at the start. */
  function SetMetadata(config: Config, repo: Repository): (writes: seq<Decision>)
    ensures writes == Map(Filter(Encode(repo), Stale(config)), AsWrite)
    ensures forall i :: 0 <= i < |writes| ==> writes[i].SetValue?
  {
    EnsureAllWrites(config, Encode(repo));
    EnsureAll(config, Encode(repo))
  }

  /** Each call to `ensureConfig` with a defined target writes exactly when the stored value differs. */
  lemma {:induction false} EnsureAllWrites(config: Config, targets: seq<Entry>)
    ensures EnsureAll(config, targets) == Map(Filter(targets, Stale(config)), AsWrite)
  {
    if |targets| > 0 {
      EnsureAllWrites(config, targets[1..]);
    }
  }

  // ---------------------------------------------------------------------------
  // Decoding

  /** JavaScript truthiness of an optional string: present and non-empty. */
  predicate Truthy(v: Option<string>) {
    v.Some? && v.value != ""
  }

  /** A flag is true only on the exact text `"true"`; anything else, absence included, is false. */
  function DecodeFlag(v: Option<string>): bool {
    v == Some("true")
  }

  /** `getMetadata`: reads the keys back. Visibility is never read. */
  function GetMetadata(config: Config): (m: Metadata)
    ensures m.visibility == None
    // owner and default branch are present exactly for non-empty stored text, and then carry it
    ensures m.owner.Some? <==> OwnerLoginKey in config && config[OwnerLoginKey] != ""
    ensures m.owner.Some? ==> Get(config, OwnerLoginKey) == Some(m.owner.value.login)
    ensures m.defaultBranchRef.Some? <==> DefaultBranchRefNameKey in config && config[DefaultBranchRefNameKey] != ""
    ensures m.defaultBranchRef.Some? ==> Get(config, DefaultBranchRefNameKey) == Some(m.defaultBranchRef.value.name)
    // every flag is known, and true exactly when its key holds the text "true"
    ensures m.isArchived == Some(Get(config, IsArchivedKey) == Some("true"))
    ensures m.isEmpty == Some(Get(config, IsEmptyKey) == Some("true"))
    ensures m.isFork == Some(Get(config, IsForkKey) == Some("true"))
    ensures m.isLocked == Some(Get(config, IsLockedKey) == Some("true"))
    ensures m.isMirror == Some(Get(config, IsMirrorKey) == Some("true"))
    ensures m.isPrivate == Some(Get(config, IsPrivateKey) == Some("true"))
    ensures m.isTemplate == Some(Get(config, IsTemplateKey) == Some("true"))
  {
    Metadata(
      id := Get(config, IdKey),
      name := Get(config, NameKey),
      owner := if Truthy(Get(config, OwnerLoginKey)) then Some(Owner(config[OwnerLoginKey])) else None,
      visibility := None,
      defaultBranchRef :=
        if Truthy(Get(config, DefaultBranchRefNameKey)) then Some(BranchRef(config[DefaultBranchRefNameKey])) else None,
      url := Get(config, UrlKey),
      isArchived := Some(DecodeFlag(Get(config, IsArchivedKey))),
      isEmpty := Some(DecodeFlag(Get(config, IsEmptyKey))),
      isFork := Some(DecodeFlag(Get(config, IsForkKey))),
      isLocked := Some(DecodeFlag(Get(config, IsLockedKey))),
      isMirror := Some(DecodeFlag(Get(config, IsMirrorKey))),
      isPrivate := Some(DecodeFlag(Get(config, IsPrivateKey))),
      isTemplate := Some(DecodeFlag(Get(config, IsTemplateKey))),
      createdAt := Get(config, CreatedAtKey),
      updatedAt := Get(config, UpdatedAtKey),
      pushedAt := Get(config, PushedAtKey),
      archivedAt := Get(config, ArchivedAtKey)
    )
  }

  // ---------------------------------------------------------------------------
  // What `setMetadata` leaves in the store

  /** The value the first entry with key `k` carries. */
  function Lookup(targets: seq<Entry>, k: string): Option<string> {
    if |targets| == 0 then None
    else if targets[0].key == k then Some(targets[0].value)
    else Lookup(targets[1..], k)
  }

  predicate DistinctKeys(targets: seq<Entry>) {
    forall i, j :: 0 <= i < j < |targets| ==> targets[i].key != targets[j].key
  }

  /** Applying the writes decided against `config` to a store that agrees with it on
      the target keys sets every target key and leaves every other key alone. */
  lemma {:induction false} ApplyEnsureAll(config: Config, c: Config, targets: seq<Entry>)
    requires DistinctKeys(targets)
    decreases |targets|
    requires forall i :: 0 <= i < |targets| ==> Get(c, targets[i].key) == Get(config, targets[i].key)
    ensures forall k :: Get(ApplyAll(c, EnsureAll(config, targets)), k)
                        == if Lookup(targets, k).Some? then Lookup(targets, k) else Get(c, k)
  {
    if |targets| > 0 {
      var t := targets[0];
      var d := EnsureConfig(config, t.key, Some(t.value));
      var c1 := Apply(c, d);
      assert Get(c1, t.key) == Some(t.value);
      assert forall k :: k != t.key ==> Get(c1, k) == Get(c, k);
      var rest := targets[1..];
      forall i | 0 <= i < |rest| ensures Get(c1, rest[i].key) == Get(config, rest[i].key) {
        assert rest[i] == targets[i + 1];
      }
      ApplyEnsureAll(config, c1, rest);
      var ds := EnsureAll(config, targets);
      if d.Keep? {
        assert ds == EnsureAll(config, rest);
      } else {
        assert ds == [d] + EnsureAll(config, rest);
        assert ds[1..] == EnsureAll(config, rest);
      }
      assert ApplyAll(c, ds) == ApplyAll(c1, EnsureAll(config, rest));
      forall k ensures Lookup(targets, k).Some? ==> Lookup(targets, k) == Some(if k == t.key then t.value else Lookup(rest, k).value) {
      }
      LookupAbsent(rest, t.key);
    }
  }

  lemma LookupAbsent(targets: seq<Entry>, k: string)
    requires forall i :: 0 <= i < |targets| ==> targets[i].key != k
    ensures Lookup(targets, k) == None
  {
  }

  /** Writes decided for distinct-keyed targets, applied to the snapshot they were
      decided against, set every target key and touch nothing else. */
  lemma EnsureAllEffect(config: Config, targets: seq<Entry>)
    requires DistinctKeys(targets)
    ensures forall i :: 0 <= i < |targets| ==>
      Get(ApplyAll(config, EnsureAll(config, targets)), targets[i].key) == Some(targets[i].value)
    ensures forall k :: (forall i :: 0 <= i < |targets| ==> targets[i].key != k) ==>
      Get(ApplyAll(config, EnsureAll(config, targets)), k) == Get(config, k)
  {
    ApplyEnsureAll(config, config, targets);
    forall i | 0 <= i < |targets| ensures Lookup(targets, targets[i].key) == Some(targets[i].value) {
      LookupDistinct(targets, i);
    }
    forall k | forall i :: 0 <= i < |targets| ==> targets[i].key != k
      ensures Lookup(targets, k) == None
    {
      LookupAbsent(targets, k);
    }
  }

  /** The store after `setMetadata`: each of the seventeen keys holds its target
      value, and every other key keeps its previous value (or stays absent). */
  lemma SyncEffect(config: Config, repo: Repository)
    ensures var c := ApplyAll(config, SetMetadata(config, repo));
      && (forall k :: k in MetadataKeys ==> Get(c, k) == Some(TargetValue(repo, k)))
      && (forall k :: k !in MetadataKeys ==> Get(c, k) == Get(config, k))
  {
    var es := Encode(repo);
    EnsureAllEffect(config, es);
    var c := ApplyAll(config, SetMetadata(config, repo));
    forall k | k in MetadataKeys ensures Get(c, k) == Some(TargetValue(repo, k)) {
      var i :| 0 <= i < |MetadataKeys| && MetadataKeys[i] == k;
      assert es[i] == Entry(k, TargetValue(repo, k));
    }
    forall k | k !in MetadataKeys ensures Get(c, k) == Get(config, k) {
      assert forall i :: 0 <= i < |es| ==> es[i].key != k;
    }
  }

  lemma {:induction false} LookupDistinct(targets: seq<Entry>, i: nat)
    requires DistinctKeys(targets) && i < |targets|
    ensures Lookup(targets, targets[i].key) == Some(targets[i].value)
  {
    if i > 0 {
      LookupDistinct(targets[1..], i - 1);
    }
  }

  /** The store after one run of `setMetadata`: the run reads the store back,
      decides its writes against that snapshot, and git applies them to the store. */
  ghost function Sync(store: Config, repo: Repository): Config {
    ApplyAll(store, SetMetadata(ReadBack(store), repo))
  }

  /** Every value `setMetadata` writes for `repo` fits on one line. */
  predicate SingleLineTargets(repo: Repository) {
    forall k :: k in MetadataKeys ==> NoTerminator(TargetValue(repo, k))
  }

  /** Only small ASCII letters and dots, as in every `github.repo.*` key. */
  predicate DottedLower(k: string) {
    forall i :: 0 <= i < |k| ==> 'a' <= k[i] <= 'z' || k[i] == '.'
  }

  lemma IdentityKeysDotted()
    ensures DottedLower(IdKey) && DottedLower(NameKey) && DottedLower(OwnerLoginKey)
  {
  }

  lemma LocationKeysDotted()
    ensures DottedLower(VisibilityKey) && DottedLower(DefaultBranchRefNameKey) && DottedLower(UrlKey)
  {
  }

  lemma StateFlagKeysDotted()
    ensures DottedLower(IsArchivedKey) && DottedLower(IsEmptyKey) && DottedLower(IsForkKey) && DottedLower(IsLockedKey)
  {
  }

  lemma KindFlagKeysDotted()
    ensures DottedLower(IsMirrorKey) && DottedLower(IsPrivateKey) && DottedLower(IsTemplateKey)
  {
  }

  lemma TimestampKeysDotted()
    ensures DottedLower(CreatedAtKey) && DottedLower(UpdatedAtKey) && DottedLower(PushedAtKey) && DottedLower(ArchivedAtKey)
  {
  }

  /** Every key `setMetadata` writes is one the listing can carry. */
  lemma MetadataKeysWellFormed()
    ensures forall k :: k in MetadataKeys ==> '=' !in k && NoTerminator(k)
  {
    IdentityKeysDotted();
    LocationKeysDotted();
    StateFlagKeysDotted();
    KindFlagKeysDotted();
    TimestampKeysDotted();
    forall k | k in MetadataKeys
      ensures '=' !in k && NoTerminator(k)
    {
      assert DottedLower(k);
    }
  }

  /** On a store whose lines parse back, with one-line targets, the synced store
      also parses back and holds every target. */
  lemma SyncReadsBack(store: Config, repo: Repository)
    requires WellFormedConfig(store) && SingleLineTargets(repo)
    ensures ReadBack(Sync(store, repo)) == Sync(store, repo)
    ensures Synced(Sync(store, repo), repo)
  {
    ReadRenderedConfig(store);
    var c := Sync(store, repo);
    SyncEffect(store, repo);
    MetadataKeysWellFormed();
    forall k | k in c
      ensures '=' !in k && NoTerminator(k) && NoTerminator(c[k])
    {
      if k !in MetadataKeys {
        assert Get(c, k) == Get(store, k);
      } else {
        assert Get(c, k) == Some(TargetValue(repo, k));
      }
    }
    ReadRenderedConfig(c);
  }

  /** The next run of `setMetadata`, reading the synced store back, writes nothing. */
  lemma SetMetadataIdempotent(store: Config, repo: Repository)
    requires WellFormedConfig(store) && SingleLineTargets(repo)
    ensures SetMetadata(ReadBack(Sync(store, repo)), repo) == []
  {
    var c := Sync(store, repo);
    SyncReadsBack(store, repo);
    SyncedTargets(c, repo);
    NoneStale(c, Encode(repo));
  }

  /** A synced store holds every target entry. */
  lemma SyncedTargets(c: Config, repo: Repository)
    requires Synced(c, repo)
    ensures forall i :: 0 <= i < |Encode(repo)| ==> Get(c, Encode(repo)[i].key) == Some(Encode(repo)[i].value)
  {
    var es := Encode(repo);
    forall i | 0 <= i < |es| ensures Get(c, es[i].key) == Some(es[i].value) {
      assert es[i].key in MetadataKeys;
    }
  }

  /** A value spanning lines never reads back, since every value `readGitConfig`
      returns fits on one line: whatever the store holds, `setMetadata` writes that
      key again. */
  lemma MultiLineTargetRewritten(text: string, repo: Repository, k: string)
    requires k in MetadataKeys && !NoTerminator(TargetValue(repo, k))
    ensures SetValue(k, TargetValue(repo, k)) in SetMetadata(ReadGitConfig(text), repo)
  {
    var config := ReadGitConfig(text);
    var e := Entry(k, TargetValue(repo, k));
    var es := Encode(repo);
    var i :| 0 <= i < |MetadataKeys| && MetadataKeys[i] == k;
    assert es[i] == e;
    assert Stale(config)(e);
    FilterMembers(es, Stale(config), e);
    var f := Filter(es, Stale(config));
    var j :| 0 <= j < |f| && f[j] == e;
    assert Map(f, AsWrite)[j] == SetValue(k, TargetValue(repo, k));
  }

  /** A default-branch name spanning lines (git allows U+2028 and U+2029 in ref
      names) never decodes back, whatever the store holds. */
  lemma MultiLineBranchLost(text: string, repo: Repository)
    requires repo.defaultBranchRef.Some? && !NoTerminator(repo.defaultBranchRef.value.name)
    ensures GetMetadata(ReadGitConfig(text)).defaultBranchRef != repo.defaultBranchRef
  {
    var config := ReadGitConfig(text);
    if DefaultBranchRefNameKey in config {
      assert NoTerminator(config[DefaultBranchRefNameKey]);
    }
  }

  /** The listing line of a branch named `a`, U+2028, `b` is two lines to the regex,
      neither of which matches. */
  lemma LineSeparatorInBranchName()
    ensures Entries(DefaultBranchRefNameKey + "=a" + ['\U{2028}'] + "b\n") == []
  {
    var first := DefaultBranchRefNameKey + "=a";
    MetadataKeysWellFormed();
    assert NoTerminator(first) by {
      assert DefaultBranchRefNameKey in MetadataKeys;
      assert forall i :: |DefaultBranchRefNameKey| <= i < |first| ==> first[i] in "=a";
    }
    assert DefaultBranchRefNameKey + "=a" + ['\U{2028}'] + "b\n" == (first + ['\U{2028}']) + ("b" + ['\n']);
    EntriesAppend(first + ['\U{2028}'], "b" + ['\n']);
    SingleLine(first, '\U{2028}');
    SingleLine("b", '\n');
  }


  lemma {:induction false} NoneStale(c: Config, es: seq<Entry>)
    requires forall i :: 0 <= i < |es| ==> Get(c, es[i].key) == Some(es[i].value)
    ensures Filter(es, Stale(c)) == []
  {
    if |es| > 0 {
      NoneStale(c, es[1..]);
    }
  }

  /** Decoding the synced store as the next run reads it: which fields survive and how.
      Identity, name, url, creation time and the flags come back exactly; visibility
      is lost; absent timestamps come back as the empty string; an empty owner login
      or default branch name comes back as unknown. */
  lemma SyncThenDecode(store: Config, repo: Repository)
    requires WellFormedConfig(store) && SingleLineTargets(repo)
    ensures var m := GetMetadata(ReadBack(Sync(store, repo)));
      && m.id == Some(repo.id)
      && m.name == Some(repo.name)
      && m.url == Some(repo.url)
      && m.createdAt == Some(repo.createdAt)
      && m.isArchived == Some(repo.isArchived)
      && m.isEmpty == Some(repo.isEmpty)
      && m.isFork == Some(repo.isFork)
      && m.isLocked == Some(repo.isLocked)
      && m.isMirror == Some(repo.isMirror)
      && m.isPrivate == Some(repo.isPrivate)
      && m.isTemplate == Some(repo.isTemplate)
      && m.visibility == None
      && m.updatedAt == Some(repo.updatedAt.GetOr(""))
      && m.pushedAt == Some(repo.pushedAt.GetOr(""))
      && m.archivedAt == Some(repo.archivedAt.GetOr(""))
      && m.owner == (if repo.owner.login == "" then None else Some(repo.owner))
      && m.defaultBranchRef ==
           (if repo.defaultBranchRef.Some? && repo.defaultBranchRef.value.name != "" then repo.defaultBranchRef else None)
  {
    var c := Sync(store, repo);
    SyncReadsBack(store, repo);
    DecodeIdentity(c, repo);
    DecodeFlags(c, repo);
    DecodeTimestamps(c, repo);
  }

  /** The store holds every target value `setMetadata` writes for `repo`. */
  predicate Synced(c: Config, repo: Repository) {
    forall k :: k in MetadataKeys ==> Get(c, k) == Some(TargetValue(repo, k))
  }

  lemma DecodeIdentity(c: Config, repo: Repository)
    requires Synced(c, repo)
    ensures var m := GetMetadata(c);
      && m.id == Some(repo.id) && m.name == Some(repo.name) && m.url == Some(repo.url)
      && m.owner == (if repo.owner.login == "" then None else Some(repo.owner))
      && m.defaultBranchRef ==
           (if repo.defaultBranchRef.Some? && repo.defaultBranchRef.value.name != "" then repo.defaultBranchRef else None)
  {
    assert Get(c, MetadataKeys[0]) == Some(repo.id);
    assert Get(c, MetadataKeys[1]) == Some(repo.name);
    assert Get(c, MetadataKeys[5]) == Some(repo.url);
    DecodeOwnerAndBranch(c, repo);
  }

  lemma DecodeOwnerAndBranch(c: Config, repo: Repository)
    requires Synced(c, repo)
    ensures var m := GetMetadata(c);
      && m.owner == (if repo.owner.login == "" then None else Some(repo.owner))
      && m.defaultBranchRef ==
           (if repo.defaultBranchRef.Some? && repo.defaultBranchRef.value.name != "" then repo.defaultBranchRef else None)
  {
    assert Get(c, MetadataKeys[2]) == Some(repo.owner.login);
    assert Get(c, MetadataKeys[3]) == Some(TargetValue(repo, DefaultBranchRefNameKey));
  }

  lemma DecodeFlags(c: Config, repo: Repository)
    requires Synced(c, repo)
    ensures var m := GetMetadata(c);
      && m.isArchived == Some(repo.isArchived)
      && m.isEmpty == Some(repo.isEmpty)
      && m.isFork == Some(repo.isFork)
      && m.isLocked == Some(repo.isLocked)
      && m.isMirror == Some(repo.isMirror)
      && m.isPrivate == Some(repo.isPrivate)
      && m.isTemplate == Some(repo.isTemplate)
  {
    DecodeStateFlags(c, repo);
    DecodeKindFlags(c, repo);
  }

  /** The archived, empty, fork and locked flags read back. */
  lemma DecodeStateFlags(c: Config, repo: Repository)
    requires Synced(c, repo)
    ensures var m := GetMetadata(c);
      && m.isArchived == Some(repo.isArchived)
      && m.isEmpty == Some(repo.isEmpty)
      && m.isFork == Some(repo.isFork)
      && m.isLocked == Some(repo.isLocked)
  {
    assert Get(c, MetadataKeys[6]) == Some(FlagText(repo.isArchived));
    assert Get(c, MetadataKeys[7]) == Some(FlagText(repo.isEmpty));
    assert Get(c, MetadataKeys[8]) == Some(FlagText(repo.isFork));
    assert Get(c, MetadataKeys[9]) == Some(FlagText(repo.isLocked));
  }

  /** The mirror, private and template flags read back. */
  lemma DecodeKindFlags(c: Config, repo: Repository)
    requires Synced(c, repo)
    ensures var m := GetMetadata(c);
      && m.isMirror == Some(repo.isMirror)
      && m.isPrivate == Some(repo.isPrivate)
      && m.isTemplate == Some(repo.isTemplate)
  {
    assert Get(c, MetadataKeys[10]) == Some(FlagText(repo.isMirror));
    assert Get(c, MetadataKeys[11]) == Some(FlagText(repo.isPrivate));
    assert Get(c, MetadataKeys[12]) == Some(FlagText(repo.isTemplate));
  }

  lemma DecodeTimestamps(c: Config, repo: Repository)
    requires Synced(c, repo)
    ensures var m := GetMetadata(c);
      && m.createdAt == Some(repo.createdAt)
      && m.updatedAt == Some(repo.updatedAt.GetOr(""))
      && m.pushedAt == Some(repo.pushedAt.GetOr(""))
      && m.archivedAt == Some(repo.archivedAt.GetOr(""))
  {
    assert Get(c, MetadataKeys[13]) == Some(repo.createdAt);
    assert Get(c, MetadataKeys[14]) == Some(repo.updatedAt.GetOr(""));
    assert Get(c, MetadataKeys[15]) == Some(repo.pushedAt.GetOr(""));
    assert Get(c, MetadataKeys[16]) == Some(repo.archivedAt.GetOr(""));
  }

  /** Every field of a repository, as metadata. */
  function FullProjection(repo: Repository): Metadata {
    Metadata(
      Some(repo.id), Some(repo.name), Some(repo.owner), Some(repo.visibility), repo.defaultBranchRef, Some(repo.url),
      Some(repo.isArchived), Some(repo.isEmpty), Some(repo.isFork), Some(repo.isLocked), Some(repo.isMirror),
      Some(repo.isPrivate), Some(repo.isTemplate),
      Some(repo.createdAt), repo.updatedAt, repo.pushedAt, repo.archivedAt)
  }

  /** Apart from visibility, the round trip is exact precisely when the owner login is
      non-empty, the default branch is absent or has a non-empty name, and every
      optional timestamp is present. */
  lemma RoundTripExactWhen(store: Config, repo: Repository)
    requires WellFormedConfig(store) && SingleLineTargets(repo)
    ensures GetMetadata(ReadBack(Sync(store, repo))) == FullProjection(repo).(visibility := None)
      <==> && repo.owner.login != ""
           && (repo.defaultBranchRef.Some? ==> repo.defaultBranchRef.value.name != "")
           && repo.updatedAt.Some? && repo.pushedAt.Some? && repo.archivedAt.Some?
  {
    SyncThenDecode(store, repo);
  }
}

=== FILE: promise_limiter.dfy ===
/** `makePromiseLimiter`: runs submitted jobs with at most `size` of them in flight,
    starting queued jobs in submission order as slots free up. Jobs are named by the
    sequential id `submit` gives them; the job bodies, their results and the logger
    are not part of the state. */
module PromiseLimiter {

  /** Where a job is in its life. */
  datatype Status = Unsubmitted | Queued | Running | Finished {
    function Rank(): nat {
      match this
      case Unsubmitted => 0
      case Queued => 1
      case Running => 2
      case Finished => 3
    }
  }

  /** The closure's variables: the size, the free-slot counter, the FIFO queue, the
      in-flight set and the next id to hand out. */
  datatype Limiter = Limiter(size: int, free: int, queue: seq<nat>, inFlight: set<nat>, nextId: nat) {

    /** The first id still waiting in the queue (`nextId` when nothing waits). */
    function FirstQueued(): int {
      nextId - |queue|
    }

    /** What every reachable state satisfies: each job in flight holds one slot, the
        counter never goes below zero while something runs, the queue holds the latest
        submissions in id order, and every job in flight was submitted before them. */
    predicate Consistent() {
      && free + |inFlight| == size
      && (free >= 0 || inFlight == {})
      && |queue| <= nextId
      && (forall i :: 0 <= i < |queue| ==> queue[i] == FirstQueued() + i)
      && (forall id :: id in inFlight ==> id < FirstQueued())
    }

    /** No job waits while a slot is free. */
    predicate Quiescent() {
      Consistent() && (queue == [] || free <= 0)
    }

    function StatusOf(id: nat): Status {
      if id >= nextId then Unsubmitted
      else if id >= FirstQueued() then Queued
      else if id in inFlight then Running
      else Finished
    }
  }

  /** `makePromiseLimiter(size, …)`: all slots free, nothing submitted. */
  function Create(size: int): (s: Limiter)
    ensures s.Quiescent() && s.size == size
    ensures forall id: nat :: s.StatusOf(id) == Unsubmitted
  {
    Limiter(size, size, [], {}, 0)
  }

  /** In a consistent state no more jobs run than there are slots. */
  lemma InFlightBound(s: Limiter)
    requires s.Consistent()
    ensures |s.inFlight| <= if s.size < 0 then 0 else s.size
  {
  }

  /** One round of `tryStart`'s loop: the oldest waiting job takes a free slot. */
  function StartOldest(s: Limiter): (t: Limiter)
    requires s.Consistent() && s.free > 0 && |s.queue| > 0
    ensures t.Consistent()
    ensures t.size == s.size && t.nextId == s.nextId && t.free == s.free - 1
    ensures t.queue == s.queue[1..] && t.inFlight == s.inFlight + {s.queue[0]} && s.queue[0] !in s.inFlight
  {
    assert s.queue[0] == s.FirstQueued();
    s.(free := s.free - 1, queue := s.queue[1..], inFlight := s.inFlight + {s.queue[0]})
  }

  /** `tryStart`: while a slot is free and a job waits, take the oldest waiting job,
      take a slot and mark the job in flight. */
  method TryStart(s: Limiter) returns (t: Limiter, started: seq<nat>)
    requires s.Consistent()
    ensures t.Quiescent()
    ensures t.size == s.size && t.nextId == s.nextId
    // each job started takes one slot
    ensures t.free == s.free - |started|
    // the jobs started are the oldest waiting ones, in queue order
    ensures s.queue == started + t.queue
    ensures |started| == if s.free <= 0 then 0 else if s.free < |s.queue| then s.free else |s.queue|
    ensures forall id :: id in started ==> s.StatusOf(id) == Queued && t.StatusOf(id) == Running
    ensures forall id: nat :: id !in started ==> t.StatusOf(id) == s.StatusOf(id)
  {
    t, started := s, [];
    while t.free > 0 && |t.queue| > 0
      invariant Started(s, t, started)
      decreases |t.queue|
    {
      var id := t.queue[0];
      StartedStep(s, t, started);
      t := StartOldest(t);
      started := started + [id];
    }
    StartedStatus(s, t, started);
  }

  /** `t` is `s` after the jobs `started` were taken, in order, from the queue. */
  predicate Started(s: Limiter, t: Limiter, started: seq<nat>) {
    && s.Consistent() && t.Consistent()
    && t.size == s.size && t.nextId == s.nextId
    && s.queue == started + t.queue
    && t.free == s.free - |started|
    && (|started| > 0 ==> t.free >= 0)
    && t.inFlight == s.inFlight + Ids(started)
  }

  lemma StartedStep(s: Limiter, t: Limiter, started: seq<nat>)
    requires Started(s, t, started) && t.free > 0 && |t.queue| > 0
    ensures Started(s, StartOldest(t), started + [t.queue[0]])
  {
    assert s.queue == (started + [t.queue[0]]) + t.queue[1..];
    assert Ids(started + [t.queue[0]]) == Ids(started) + {t.queue[0]};
  }

  /** The ids a sequence holds. */
  function Ids(started: seq<nat>): (ids: set<nat>)
    ensures forall id :: id in ids <==> id in started
  {
    set id | id in started
  }

  /** A prefix of a run of consecutive ids holds exactly the ids of its range. */
  lemma PrefixRange(q: seq<nat>, prefix: seq<nat>, rest: seq<nat>, base: int)
    requires q == prefix + rest
    requires forall i :: 0 <= i < |q| ==> q[i] == base + i
    ensures forall id: nat :: id in prefix <==> base <= id < base + |prefix|
  {
    forall id: nat
      ensures id in prefix <==> base <= id < base + |prefix|
    {
      if base <= id < base + |prefix| {
        assert prefix[id - base] == q[id - base] == id;
      }
      if id in prefix {
        var i :| 0 <= i < |prefix| && prefix[i] == id;
        assert q[i] == id;
      }
    }
  }

  /** Taking a prefix of the queue into the in-flight set moves exactly those jobs
      from waiting to running. */
  lemma StartedStatus(s: Limiter, t: Limiter, started: seq<nat>)
    requires s.Consistent() && t.nextId == s.nextId
    requires s.queue == started + t.queue
    requires t.inFlight == s.inFlight + Ids(started)
    ensures forall id :: id in started ==> s.StatusOf(id) == Queued && t.StatusOf(id) == Running
    ensures forall id: nat :: id !in started ==> t.StatusOf(id) == s.StatusOf(id)
  {
    PrefixRange(s.queue, started, t.queue, s.FirstQueued());
  }

  /** `submit`: hand out the next id, append the job to the queue and try to start
      jobs. Returns the new state, the job's id and the jobs it started. */
  method Submit(s: Limiter) returns (t: Limiter, id: nat, started: seq<nat>)
    requires s.Quiescent()
    ensures t.Quiescent() && t.size == s.size
    ensures id == s.nextId && t.nextId == s.nextId + 1
    // the new job runs at once exactly when a slot was free; otherwise it waits last
    ensures s.free > 0 <==> started == [id]
    ensures s.free <= 0 <==> started == [] && t.queue == s.queue + [id]
    ensures t.StatusOf(id) == if s.free > 0 then Running else Queued
    ensures forall other: nat :: other != id ==> t.StatusOf(other) == s.StatusOf(other)
    ensures forall job: nat :: s.StatusOf(job).Rank() <= t.StatusOf(job).Rank()
  {
    id := s.nextId;
    var queued := s.(queue := s.queue + [id], nextId := s.nextId + 1);
    assert forall other: nat :: other != id ==> queued.StatusOf(other) == s.StatusOf(other);
    t, started := TryStart(queued);
    if s.free > 0 {
      assert queued.queue == [id];
      assert |started| == 1 && started == [started[0]];
    }
  }

  /** The `finally` handler of a started job: leave the in-flight set, give the slot
      back and try to start jobs. Returns the new state and the jobs it started. */
  method Finish(s: Limiter, id: nat) returns (t: Limiter, started: seq<nat>)
    requires s.Quiescent() && id in s.inFlight
    ensures t.Quiescent() && t.size == s.size && t.nextId == s.nextId
    ensures t.StatusOf(id) == Finished
    // the job gives its slot back, and each job started takes one
    ensures t.free == s.free + 1 - |started|
    // the freed slot goes to the oldest waiting job, if any
    ensures started == if s.queue == [] then [] else [s.queue[0]]
    ensures forall job :: job in started ==> s.StatusOf(job) == Queued && t.StatusOf(job) == Running
    ensures forall other: nat :: other != id && other !in started ==> t.StatusOf(other) == s.StatusOf(other)
    // no job moves backwards: none leaves the queue except to run, none runs again
    ensures forall job: nat :: s.StatusOf(job).Rank() <= t.StatusOf(job).Rank()
  {
    var released := s.(free := s.free + 1, inFlight := s.inFlight - {id});
    assert |released.inFlight| == |s.inFlight| - 1;
    t, started := TryStart(released);
  }
}

=== FILE: reference_data.dfy ===
/** A repository record of the remote catalog (one node of the `listRepositories` query). */
module ReferenceData {
  import opened Wrappers

  datatype Owner = Owner(login: string)

  datatype BranchRef = BranchRef(name: string)

  /** Immutable snapshot of a remote repository; `id` is the stable identity. */
  datatype Repository = Repository(
    id: string,
    name: string,
    owner: Owner,
    visibility: string,
    defaultBranchRef: Option<BranchRef>,
    url: string,
    isArchived: bool,
    isEmpty: bool,
    isFork: bool,
    isLocked: bool,
    isMirror: bool,
    isPrivate: bool,
    isTemplate: bool,
    createdAt: string,
    updatedAt: Option<string>,
    pushedAt: Option<string>,
    archivedAt: Option<string>
  )
}

=== FILE: seqs.dfy ===
/** Order-preserving filtering and mapping of sequences, with the facts the matcher needs. */
module Seqs {

  /** The elements of `s` satisfying `p`, in their original order (`Array.prototype.filter`). */
  function Filter<T>(s: seq<T>, p: T -> bool): (r: seq<T>)
    ensures |r| <= |s|
    ensures forall i :: 0 <= i < |r| ==> p(r[i])
    ensures multiset(r) <= multiset(s)
  {
    if |s| == 0 then []
    else
      assert s == [s[0]] + s[1..];
      if p(s[0]) then [s[0]] + Filter(s[1..], p) else Filter(s[1..], p)
  }

  /** The filtered sequence holds exactly the elements of `s` that satisfy `p`. */
  lemma {:induction false} FilterMembers<T>(s: seq<T>, p: T -> bool, x: T)
    ensures x in Filter(s, p) <==> x in s && p(x)
  {
    if |s| > 0 {
      FilterMembers(s[1..], p, x);
      assert s == [s[0]] + s[1..];
    }
  }

  /** `f` applied to every element of `s` (`Array.prototype.map`). */
  function Map<A, B>(s: seq<A>, f: A -> B): (r: seq<B>)
    ensures |r| == |s|
    ensures forall i :: 0 <= i < |s| ==> r[i] == f(s[i])
  {
    if |s| == 0 then [] else [f(s[0])] + Map(s[1..], f)
  }

  lemma MapCons<A, B>(x: A, s: seq<A>, f: A -> B)
    ensures Map([x] + s, f) == [f(x)] + Map(s, f)
  {
    assert ([x] + s)[1..] == s;
  }

  function Not<T>(p: T -> bool): T -> bool {
    x => !p(x)
  }

  function And<T>(p: T -> bool, q: T -> bool): T -> bool {
    x => p(x) && q(x)
  }

  /** Filtering by `p` and by its negation splits `s` into two parts that together are `s`. */
  lemma {:induction false} FilterPartition<T>(s: seq<T>, p: T -> bool)
    ensures multiset(Filter(s, p)) + multiset(Filter(s, Not(p))) == multiset(s)
    ensures |Filter(s, p)| + |Filter(s, Not(p))| == |s|
  {
    if |s| > 0 {
      FilterPartition(s[1..], p);
      assert s == [s[0]] + s[1..];
    }
  }

  /** Filtering twice is filtering once by the conjunction. */
  lemma {:induction false} FilterFilter<T>(s: seq<T>, p: T -> bool, q: T -> bool)
    ensures Filter(Filter(s, p), q) == Filter(s, And(p, q))
  {
    if |s| > 0 {
      FilterFilter(s[1..], p, q);
    }
  }

  /** Two predicates that agree on the elements of `s` select the same elements. */
  lemma {:induction false} FilterCongruent<T>(s: seq<T>, p: T -> bool, q: T -> bool)
    requires forall i :: 0 <= i < |s| ==> p(s[i]) == q(s[i])
    ensures Filter(s, p) == Filter(s, q)
  {
    if |s| > 0 {
      FilterCongruent(s[1..], p, q);
    }
  }

  /** A predicate that holds throughout `s` keeps all of it. */
  lemma {:induction false} FilterKeepsAll<T>(s: seq<T>, p: T -> bool)
    requires forall i :: 0 <= i < |s| ==> p(s[i])
    ensures Filter(s, p) == s
  {
    if |s| > 0 {
      FilterKeepsAll(s[1..], p);
    }
  }

  /** Every element of `s` satisfies `p`. */
  predicate All<T>(s: seq<T>, p: T -> bool) {
    forall i :: 0 <= i < |s| ==> p(s[i])
  }

  /** A property of the head and of every later element holds of every element. */
  lemma PrependAll<T>(x: T, xs: seq<T>, p: T -> bool)
    requires p(x) && All(xs, p)
    ensures All([x] + xs, p)
  {
  }
}

=== FILE: strings.dfy ===
/** Character-level string helpers: case folding for name comparison and the
    default ordering JavaScript's `Array.prototype.sort` uses for strings. */
module Strings {
  import Seqs

  predicate IsUpper(c: char) {
    'A' <= c <= 'Z'
  }

  /** Lower-cases an ASCII capital letter to the small letter at the same place in
      the alphabet, and leaves every other character alone. */
  function LowerChar(c: char): (d: char)
    ensures IsUpper(c) ==> 'a' <= d <= 'z' && d as int - 'a' as int == c as int - 'A' as int
    ensures !IsUpper(c) ==> d == c
  {
    if IsUpper(c) then (c as int + ('a' as int - 'A' as int)) as char else c
  }

  /** The same character, or a capital and its small letter in either order. */
  predicate SameUpToCase(x: char, y: char) {
    || x == y
    || (IsUpper(x) && y as int - 'a' as int == x as int - 'A' as int)
    || (IsUpper(y) && x as int - 'a' as int == y as int - 'A' as int)
  }

  /** Lower-cases every ASCII capital of `s`; the result holds no capital. */
  function Lower(s: string): (t: string)
    ensures |t| == |s|
    ensures forall i :: 0 <= i < |s| ==> t[i] == LowerChar(s[i])
    ensures forall i :: 0 <= i < |t| ==> !IsUpper(t[i])
  {
    Seqs.Map(s, LowerChar)
  }

  /** Two characters lower-case alike exactly when they are the same up to case. */
  lemma LowerCharAlike(x: char, y: char)
    ensures LowerChar(x) == LowerChar(y) <==> SameUpToCase(x, y)
  {
  }

  /** Two strings lower-case alike exactly when they have the same length and agree
      position by position up to case. */
  lemma LowerAlike(a: string, b: string)
    ensures Lower(a) == Lower(b) <==> |a| == |b| && forall i :: 0 <= i < |a| ==> SameUpToCase(a[i], b[i])
  {
    if Lower(a) == Lower(b) {
      forall i | 0 <= i < |a| ensures SameUpToCase(a[i], b[i]) {
        LowerCharAlike(a[i], b[i]);
      }
    }
    if |a| == |b| && forall i :: 0 <= i < |a| ==> SameUpToCase(a[i], b[i]) {
      forall i | 0 <= i < |a| ensures Lower(a)[i] == Lower(b)[i] {
        LowerCharAlike(a[i], b[i]);
      }
    }
  }

  /** Lower-casing twice is lower-casing once. */
  lemma LowerIdempotent(s: string)
    ensures Lower(Lower(s)) == Lower(s)
  {
    assert forall i :: 0 <= i < |s| ==> LowerChar(Lower(s)[i]) == Lower(s)[i];
  }

  /** Lexicographic order on Unicode scalar values: a proper prefix sorts first. */
  predicate LexLessEq(a: string, b: string) {
    |a| == 0 || (|b| > 0 && (a[0] < b[0] || (a[0] == b[0] && LexLessEq(a[1..], b[1..]))))
  }

  lemma {:induction false} LexTotal(a: string, b: string)
    ensures LexLessEq(a, b) || LexLessEq(b, a)
  {
    if |a| > 0 && |b| > 0 && a[0] == b[0] {
      LexTotal(a[1..], b[1..]);
    }
  }

  lemma {:induction false} LexAntisymmetric(a: string, b: string)
    requires LexLessEq(a, b) && LexLessEq(b, a)
    ensures a == b
  {
    if |a| > 0 && |b| > 0 {
      LexAntisymmetric(a[1..], b[1..]);
      assert a == [a[0]] + a[1..] && b == [b[0]] + b[1..];
    }
  }

  lemma {:induction false} LexTransitive(a: string, b: string, c: string)
    requires LexLessEq(a, b) && LexLessEq(b, c)
    ensures LexLessEq(a, c)
  {
    if |a| > 0 && |b| > 0 && |c| > 0 && a[0] == b[0] == c[0] {
      LexTransitive(a[1..], b[1..], c[1..]);
    }
  }

  predicate Sorted(s: seq<string>) {
    forall i, j :: 0 <= i < j < |s| ==> LexLessEq(s[i], s[j])
  }

  /** Places `x` in the sorted sequence `s`. */
  function Insert(x: string, s: seq<string>): (r: seq<string>)
    requires Sorted(s)
    ensures Sorted(r)
    ensures multiset(r) == multiset(s) + multiset{x}
  {
    if |s| == 0 then [x]
    else if LexLessEq(x, s[0]) then
      assert forall j :: 0 < j < |s| ==> LexLessEq(s[0], s[j]);
      forall j | 0 <= j < |s| ensures LexLessEq(x, s[j]) {
        if j > 0 { LexTransitive(x, s[0], s[j]); }
      }
      assert s == [s[0]] + s[1..];
      [x] + s
    else
      LexTotal(x, s[0]);
      var rest := Insert(x, s[1..]);
      assert s == [s[0]] + s[1..];
      forall j | 0 <= j < |rest| ensures LexLessEq(s[0], rest[j]) {
        assert rest[j] in multiset(rest);
        assert rest[j] == x || rest[j] in multiset(s[1..]);
      }
      [s[0]] + rest
  }

  /** Insertion sort; models `.sort()` on an array of strings. */
  function SortStrings(s: seq<string>): (r: seq<string>)
    ensures Sorted(r)
    ensures multiset(r) == multiset(s)
  {
    if |s| == 0 then []
    else
      assert s == [s[0]] + s[1..];
      Insert(s[0], SortStrings(s[1..]))
  }

  /** The head of a sorted sequence is below every element of it. */
  lemma HeadIsLeast(a: seq<string>, x: string)
    requires Sorted(a) && x in a
    ensures LexLessEq(a[0], x)
  {
    var j :| 0 <= j < |a| && a[j] == x;
    if j == 0 {
      LexTotal(x, x);
    }
  }

  /** A multiset of strings has exactly one sorted arrangement, so any correct sort
      (in particular the engine's own) produces the same sequence as `SortStrings`. */
  lemma {:induction false} SortedUnique(a: seq<string>, b: seq<string>)
    requires Sorted(a) && Sorted(b)
    requires multiset(a) == multiset(b)
    ensures a == b
  {
    if |a| == 0 {
      assert |b| == |multiset(b)| == 0;
    } else {
      assert |b| == |multiset(b)| > 0;
      assert a[0] in multiset(b) && b[0] in multiset(a);
      HeadIsLeast(a, b[0]);
      HeadIsLeast(b, a[0]);
      LexAntisymmetric(a[0], b[0]);
      SortedTail(a);
      SortedTail(b);
      assert a == [a[0]] + a[1..] && b == [b[0]] + b[1..];
      calc {
        multiset(a[1..]);
        multiset(a) - multiset{a[0]};
        multiset(b) - multiset{b[0]};
        multiset(b[1..]);
      }
      SortedUnique(a[1..], b[1..]);
    }
  }

  lemma SortedTail(a: seq<string>)
    requires Sorted(a) && |a| > 0
    ensures Sorted(a[1..])
  {
    forall i, j | 0 <= i < j < |a| - 1 ensures LexLessEq(a[1..][i], a[1..][j]) {
      assert a[1..][i] == a[i + 1] && a[1..][j] == a[j + 1];
    }
  }
}

=== FILE: wrappers.dfy ===
/** Optional values, standing in for TypeScript's `T | undefined`. */
module Wrappers {

  datatype Option<+T> = None | Some(value: T) {

    /** The wrapped value, or `default` when absent (TypeScript's `??`). */
    function GetOr(default: T): T {
      match this
      case Some(v) => v
      case None => default
    }
  }
}
